=== FILE: README.md ===
# LoRA adapter bookkeeping and weight patching, modelled in Dafny

This project models the core of `modules/lora/networks.py`. That file loads LoRA-style
adapter networks, keeps a registry and a cache of them, and patches their weight deltas
into the layers of a base diffusion model. The model covers these parts:

- **Raw-key normalisation and grouping** (`keys.dfy`, `loader.dfy`). A state-dict key is
  handled one of three ways:
  - keys under `bundle_emb.` are routed to the bundled-embeddings map;
  - a key with more than five dot-separated segments gets a rebuilt `lora_`-prefixed layer
    name, and its sub-key is relabelled (`lora_A`/`lora_B` become `lora_down`/`lora_up`);
  - any other key is split at its first dot.

  The layer name is then converted to a base-model layer, and the weights are grouped per
  converted layer.
- **Module-type dispatch and load outcome** (`loader.dfy`, `fifo.dfy`). The model covers:
  - first-match dispatch over the eight module types, in their fixed order;
  - `load_safetensors`: no model loaded, a cache hit, an exception for a malformed key,
    `None` when no key matched, otherwise a new network stored in the cache;
  - the insertion-ordered cache and its eviction from the front.
- **The registry** (`registry.dfy`). `list_available_networks` and `add_network` build four
  indices: by name, by alias (or by name under the `'filename'` preference), by short hash,
  and the forbidden-alias set seeded with `none` and `Addams`.
- **`maybe_recompile_model`** (`recompile.dfy`). It compares the request, position by
  position, with the `name:multiplier` strings the model was compiled with.
- **`network_load`** (`session.dfy`). The model covers:
  - a single rescan when some name is unknown;
  - the request loop and the failed names;
  - the multipliers: the same network object is returned for every occurrence of a name,
    so the last occurrence's multipliers win, and they show on the cached object too;
  - the recorded compile strings;
  - eviction.
- **The per-layer patch state machine** (`patch.dfy`):
  - backups: absent, the no-copy marker, or a snapshot;
  - delta accumulation, including the quirk that a module returning `None` replaces the
    running sum;
  - per-network error counting;
  - apply with and without negation;
  - `network_activate` and `network_deactivate` over a sequence of layers, with an
    interrupt point.

How the model represents the code:

- **Tensors** are `int`. The core only adds and negates them, so one coordinate stands for
  every element.
- **Multipliers** are `real`.
- **Code the core calls but does not contain** becomes function-typed parameters:
  - the key converter;
  - each module type's acceptance test;
  - `calc_updown`;
  - the state-dict reader;
  - the `NetworkOnDisk` probe;
  - the rendering of a multiplier in `f"{name}:{mult}"`.
- **The interrupt flag** becomes an index: layers from that index on are skipped.

The model follows the code in four places where a reading of the intended design could
differ:

- `network_deactivate` checks no signature. Every named layer that is not interrupted
  gets its negated delta applied again and its signature reset to `()`, so deactivating
  twice subtracts twice (`Patch.DeactivateTwice`). Outside low-memory mode it does
  nothing at all.
- Resolution looks only in the alias index. The forbidden-alias set is recorded and never
  consulted.
- A name whose load raised is neither loaded nor listed as failed.
- A recompile records a string only for a name that resolved (line 251 sits inside the
  `if network_on_disk is not None` branch). So when a name stays unknown, the recorded
  list is shorter than the request, and the same request recompiles again on every call
  (`Session.RecompilesForever`).

## Model

| member | source | states |
|---|---|---|
| Keys.NormalizeKey | modules/lora/networks.py:118-132 | a key raises exactly when it has no dot; it is a bundled embedding exactly when its first segment is `bundle_emb`; a key of more than five segments yields a dot-free layer name that starts with `lora_` |
| Keys.ShortKeySplitsAtFirstDot | modules/lora/networks.py:131-132 | a key of two to five segments splits at its first dot into a dot-free layer name and the rest |
| Keys.LongKeyShape | modules/lora/networks.py:126-130 | a long key is `head.tail`, where the tail holds the last two segments; the layer name is the head with dots turned into `_` and `lora_` prepended unless already present; the sub-key is the relabelled tail |
| Keys.BundleKeyShape | modules/lora/networks.py:120-125 | a bundled key names its embedding by the second segment and its vector by the text after the second dot (or the second segment when there are only two) |
| Keys.RelabelDownFront | modules/lora/networks.py:130 | a sub-key `lora_A` + rest, where the rest has no `A` or `B`, becomes `lora_down` + rest |
| Keys.RelabelUpFront | modules/lora/networks.py:130 | a sub-key `lora_B` + rest, where the rest has no `A` or `B`, becomes `lora_up` + rest |
| Keys.RelabelOther | modules/lora/networks.py:130 | a sub-key without `lora_A` or `lora_B` is left as it is |
| Loader.GroupKeysRaises | modules/lora/networks.py:118-132 | grouping raises exactly when some key of the file has no dot |
| Loader.GroupKeysMatched | modules/lora/networks.py:133-139 | a converted layer is matched exactly when some non-bundle key's layer name converts to it with a base-model module |
| Loader.GroupKeysUnmatched | modules/lora/networks.py:133-136 | a raw key is recorded as unmatched exactly when it is a non-bundle key whose conversion found no module |
| Loader.GroupKeysEmbeddings | modules/lora/networks.py:120-125 | an embedding vector is recorded exactly when some bundled key names that embedding and vector |
| Loader.GroupKeysStored | modules/lora/networks.py:118-139 | every sub-key slot of a grouped layer and every vector slot of a bundled embedding holds the tensor of the last key that writes to it, and is empty when no key writes to it |
| Loader.GroupKeysFirstKey | modules/lora/networks.py:137-138 | a grouped layer carries its converted key and the raw key of the first item that reached it |
| Loader.LastWriteWins | modules/lora/networks.py:137-139 | a later key for the same layer and sub-key overwrites the weight |
| Loader.Dispatch | modules/lora/networks.py:143-151 | a module is built exactly when some type accepts the weights, and it is built by the first type in the list that accepts them |
| Loader.BuildModulesFirstMatch | modules/lora/networks.py:141-151 | a matched layer gets a module exactly when one of the eight types (lora, hada, ia3, oft, lokr, full, norm, glora, in that order) accepts it, and the module is of the first such type |
| Loader.LoadSafetensors | modules/lora/networks.py:95-162 | covers five outcomes: (1) without a loaded model it returns nothing and leaves the cache alone; (2) a cached name returns the cached network without reading; (3) otherwise it raises exactly when a key has no dot; (4) it returns nothing, cache unchanged, exactly when no key matched; (5) a new network carries the name, is stored in the cache, and holds the first-match modules built from the grouped layers, the grouped bundled embeddings, and the starting multipliers |
| Fifo.Put | modules/lora/networks.py:160 | storing a new name appends it to the insertion order, and re-storing keeps its place; the cache stays well formed |
| Fifo.Evict | modules/lora/networks.py:274-276 | eviction keeps the cache well formed and at most the limit in size; what is left is the newest `limit` names of the insertion order, each with its old value |
| Fifo.EvictUnderLimit | modules/lora/networks.py:274-276 | a cache within the limit is left as it is |
| Fifo.PopOldest | modules/lora/networks.py:275-276 | popping the first key of the iteration order drops the earliest-inserted name from the order, keeps the cache well formed, and keeps the other entries with their values |
| Fifo.EvictPopsOldest | modules/lora/networks.py:274-276 | over the limit, eviction is the same as popping the earliest entry and then evicting the rest, so the closed form is the loop's result |
| Fifo.EvictOldestFirst | modules/lora/networks.py:274-276 | when an entry survives eviction, every entry inserted after it survives too |
| Fifo.EvictKeepsAppended | modules/lora/networks.py:274-276 | when entries were appended to an older cache and one of the older entries survives eviction, every appended entry survives |
| Registry.DeriveNameOfStem | modules/lora/networks.py:204-205 | the name of `dir/stem.ext` is the stem with dots turned into `_` |
| Registry.AddEntryAliases | modules/lora/networks.py:211-214 | adding an entry adds exactly its alias key (its name under the `'filename'` preference) to the alias index |
| Registry.AddEntryForbidden | modules/lora/networks.py:209-210 | adding an entry forbids exactly its lower-cased alias, when that alias was already a key of the alias index |
| Registry.ScanNetworks | modules/lora/networks.py:193-208 | after a rescan, a name is registered exactly when some candidate is a file whose entry has that name |
| Registry.ScanAliases | modules/lora/networks.py:193-214 | after a rescan, an alias key is present exactly when some found entry has it |
| Registry.ScanHashes | modules/lora/networks.py:193-216 | after a rescan, a short hash is indexed exactly when it is non-empty and some found entry has it |
| Registry.ScanEntry | modules/lora/networks.py:193-216 | after a rescan, the name, alias and hash indices each hold a key exactly when some probed entry is filed under it (a hash only when non-empty), and map it to the entry of the last such candidate |
| Registry.ScanForbidden | modules/lora/networks.py:193-210 | after a rescan, the forbidden aliases are `none`, `Addams`, and the lower-cased alias of every entry whose alias collided with an earlier alias key |
| Registry.CollidingAliasStillResolves | modules/lora/networks.py:209-214 | when an alias collides with an earlier alias key, its lower-cased form is forbidden, yet the alias still resolves, to the last entry filed under it |
| Registry.ScanCount | modules/lora/networks.py:201-208 | with distinct derived names, the name index holds one entry per found file |
| Recompile.AnyDifferenceFrom | modules/lora/networks.py:168-173 | the comparison loop reports a difference exactly when some position from the start onward differs from `name:multiplier` |
| Recompile.MaybeRecompile | modules/lora/networks.py:165-188 | recompiles exactly when a compiled-model state exists, is marked compiled, and its recorded list differs in length or at some position; the list is then emptied, and otherwise the state is left untouched |
| Recompile.SameRequestNoRecompile | modules/lora/networks.py:168-178 | a request equal, position by position, to the recorded list does not recompile |
| Patch.CalcWeightsSums | modules/lora/networks.py:363-379 | the summed weight and bias deltas are the sums of the contributions after the last module that returned `None`, and `None` when the last one did |
| Patch.CalcWeightsFolds | modules/lora/networks.py:365-379 | the delta loop is the replace-on-`None` accumulator folded over the non-raising modules in load order |
| Patch.FoldIsTrailingSum | modules/lora/networks.py:372-379 | the replace-on-`None` accumulator equals the sum of the trailing run of present deltas |
| Patch.AllPresentSums | modules/lora/networks.py:372-379 | when every module returns a delta, the batch is their sum |
| Patch.NoneWipesEarlier | modules/lora/networks.py:372-379 | a `None` followed by one delta leaves only that delta, whatever came before |
| Patch.CalcWeightsRaised | modules/lora/networks.py:389-390 | a network is charged an error exactly when its module for the layer raised |
| Patch.ChargeCounts | modules/lora/networks.py:390 | each network's error counter grows by the number of times it was charged |
| Patch.CalcWeightsCharges | modules/lora/networks.py:365-396 | one layer charges a network name once for every loaded network of that name whose module for the layer raised |
| Patch.ActivateLayer | modules/lora/networks.py:537-553 | an unnamed layer, or one already at the wanted signature, is skipped untouched; any other layer ends at the wanted signature |
| Patch.ActivateLayerBackups | modules/lora/networks.py:313-349 | backups are taken at most once; a missing weight backup is taken exactly when a loaded network covers the layer, and a missing bias backup exactly when the layer is covered and has a bias; each is the marker in low-memory or fuse mode and a snapshot otherwise |
| Patch.ActivateLayerWeight | modules/lora/networks.py:402-424 | the patched weight is snapshot + delta, or live weight + delta with the marker, or unchanged without a backup; a missing delta adds nothing |
| Patch.ActivateLayerBias | modules/lora/networks.py:428-442 | the patched bias is its base + bias delta with a bias backup; it is `None` when only the weight has a backup, and unchanged with no backup at all |
| Patch.ActivateAll | modules/lora/networks.py:534-553 | each layer before the interrupt point is activated, and every later layer is left as it was |
| Patch.SettledPassIsIdle | modules/lora/networks.py:539 | a pass over layers already at the wanted signature changes nothing and charges nothing |
| Patch.ActivateIdempotent | modules/lora/networks.py:529-553 | after an uninterrupted activation, activating again with the same loaded networks changes nothing and charges nothing |
| Patch.NetworkActivate | modules/lora/networks.py:507-553 | every pending layer before the interrupt point ends at the wanted signature; interrupted, unnamed and already-current layers are untouched |
| Patch.ActivateAllCharges | modules/lora/networks.py:537-553 | the activation pass charges a name once per (pending layer before the interrupt point, module) pair whose calc raised |
| Patch.NetworkActivateErrors | modules/lora/networks.py:389-390 | after `network_activate`, each error counter has grown by exactly the number of patched (layer, module) pairs whose calc for that network raised |
| Patch.DeactivateLayer | modules/lora/networks.py:479-493 | an unnamed layer is untouched; a named layer keeps its backups and ends with the empty signature |
| Patch.DeactivateLayerWeight | modules/lora/networks.py:484-487 | deactivation subtracts the summed delta from the live weight with the marker, and from the snapshot with a snapshot |
| Patch.DeactivateAll | modules/lora/networks.py:476-493 | each layer before the interrupt point is deactivated, and every later layer is left as it was |
| Patch.NetworkDeactivate | modules/lora/networks.py:449-493 | outside low-memory mode nothing changes at all; in low-memory mode every named layer before the interrupt point ends with the empty signature, and interrupted and unnamed layers are left exactly as they were |
| Patch.DeactivateAllCharges | modules/lora/networks.py:476-493 | the deactivation pass charges a name once per (named layer before the interrupt point, module) pair whose calc raised |
| Patch.NetworkDeactivateErrors | modules/lora/networks.py:449-493 | after `network_deactivate`, each error counter has grown by the number of patched (layer, module) pairs whose calc for that network raised in low-memory mode, and is unchanged otherwise |
| Patch.ContributionsIndependent | modules/lora/networks.py:365-370 | when modules compute their delta without regard to the live weight, the contributions do not depend on it |
| Patch.RoundTripLayer | modules/lora/networks.py:480-493 | in low-memory mode, with marker backups and weight-independent deltas, activating a pending layer and then deactivating it restores its weight and bias |
| Patch.RoundTrip | modules/lora/networks.py:449-553 | activation followed by deactivation, both interrupted at the same layer, restores every layer's weight and bias under the same conditions |
| Patch.DeactivateTwice | modules/lora/networks.py:449-493 | deactivating a marker-backed layer twice subtracts its delta twice |
| Session.NetworkLoad | modules/lora/networks.py:229-276 | reports a rescan exactly when some name was unknown, and a recompile exactly as the recompile decision says; leaves the compiled state alone otherwise; the cache stays well formed and within the limit |
| Session.RescanResolves | modules/lora/networks.py:231-234 | when some name is unknown, a name resolves after the one rescan exactly when some probed candidate has it as alias key (its name under the `'filename'` preference), and to the entry of the last such candidate |
| Session.NoRescanResolves | modules/lora/networks.py:231-234 | when every name is known, the registry is kept and every name resolves to its current alias entry |
| Session.StepFate | modules/lora/networks.py:98-102 | loading a name during the loop gives the same outcome as loading it alone against the cache from before the call, since an earlier load's cache entry is returned again |
| Session.StepKeeps | modules/lora/networks.py:243-272 | one loop iteration appends the name to the loaded list exactly when its own load succeeds and to the failed list exactly when that returns nothing, sets its multipliers only when it loads, and keeps the cache agreeing with the one from before the call |
| Session.LoopFates | modules/lora/networks.py:243-272 | the loop keeps, in request order, exactly the names that load and lists as failed exactly those that return nothing |
| Session.LoopOrder | modules/lora/networks.py:243-272 | the loop keeps the cache's old insertion order as a prefix and appends only names that it loaded in this call and that were not cached before (line 160) |
| Session.NetworkLoadEvictsOldestFirst | modules/lora/networks.py:274-276 | after the whole call, an entry cached before the call survives only if every later one of them does, and only if every name newly loaded by this call survives too |
| Session.LoopMults | modules/lora/networks.py:268-271 | a loaded name holds the multipliers of its last occurrence in the request |
| Session.LoopTags | modules/lora/networks.py:250-251 | the loop records `name:multiplier` for every resolved name, whether or not its load succeeds |
| Session.NetworkLoadResult | modules/lora/networks.py:243-272 | `loaded_networks` is, in request order, the loaded network of each name that loads, with the te, unet and dyn multipliers of the name's last occurrence (default when a list is absent); failed names are exactly the unresolved and `None`-returning ones |
| Session.NetworkLoadCompiled | modules/lora/networks.py:250-251 | after a recompile, the recorded list holds the `name:multiplier` of every resolved name, in request order |
| Session.RecompileSettles | modules/lora/networks.py:165-178 | after a recompile for a request whose names all resolve, the same request does not recompile again |
| Session.ResolvedTagsShort | modules/lora/networks.py:250-251 | the recorded list has at most one string per position, and fewer when some name does not resolve |
| Session.RecompilesForever | modules/lora/networks.py:168-178 | when a name stays unknown after the rescan, a recompile records a list shorter than the request, so repeating the same request recompiles again |
| Session.NetworkLoadCache | modules/lora/networks.py:268-276 | after the call each cache entry is one of two things: the network of a name loaded in this call, with that name's request multipliers, or the entry from before the call |
| Session.NetworkLoadCacheNames | modules/lora/networks.py:103 | every cached network carries the name it is cached under, before and after the call |
| Session.NetworkLoadNames | modules/lora/networks.py:103 | the i-th loaded network is named after the i-th loaded request name |

## Left out

- Tensor arithmetic, dtypes, shapes and floating point: a tensor is one integer and a
  multiplier a real.
- The inpainting channel pad at lines 412-413: it depends only on tensor shape.
- The bitsandbytes 4-bit dequantise/requantise at lines 321-331 and 418-419: a foreign
  quantisation library.
- The `qweight`/`freeze` hook at lines 425-426: also a foreign quantisation library.
- Device moves and offloading, both of which only place data: lines 334-335, 347-348,
  361-362, 381-388, 455-457 and 513-515.
- The thread pool in the directory scan (lines 221-223): the model adds candidates one
  after another, in candidate order. In the program, which entry wins a shared name,
  alias or hash, and whether an alias lands in `forbidden`, depend on which probe finishes
  last; the check-then-insert at lines 209-216 is also unsynchronised. So "the last such
  candidate" in `Registry.ScanEntry`, `Registry.CollidingAliasStillResolves` and
  `Registry.ScanForbidden` holds for a sequential scan only.
- File I/O and the code behind it. Three of these are parameters of the model:
  - `read_state_dict`, as the list of items a name's file holds;
  - `files_cache.list_files`, as the candidate list;
  - the `NetworkOnDisk` constructor, as the probe.
- `getmtime` at line 104 and the embedding registration at line 268 are dropped: they
  only touch attributes the model does not keep (`mtime` and the embedding database).
- `read_hash` at line 258 is dropped. After a successful load it computes the entry's
  hash lazily, so the program's registry entry can gain a hash the model never sees: the
  model keeps the scan-time `shorthash` of `Registry.DiskEntry`, and `Registry.ScanHashes`
  and `Registry.ScanEntry` index only that value. The only reader of the new value on
  this path would be the diffusers override check at line 252 of a later call, through the
  `shorthash` read at line 246; that branch is also left out.
- Exceptions from `read_state_dict`, `getmtime`, the key converter or a module
  constructor: the handler at lines 259-263 catches them, so the name is skipped
  without being recorded as failed. The model lets only the missing-dot key raise;
  every other foreign call is taken to succeed.
- A `calc_updown` exception other than `RuntimeError`: only `RuntimeError` is caught at
  line 389, so any other exception would abort `network_activate` part-way. The model
  treats every raise as a `RuntimeError`.
- A `RuntimeError` from the in-place bias sum at line 377, after the same module's weight
  delta was already added at line 373: the network is charged an error, yet its weight
  delta stays in the sum. In the model, a module that raises contributes nothing.
- The kohya and sd3 state-dict converters at lines 105-113: foreign code that depends on
  the model type.
- The diffusers loading path: the branch at lines 252-253, `load_diffusers` at lines 65-91,
  and the adapter calls at lines 278-288. These are foreign pipeline calls, so the model
  always takes the `load_safetensors` branch.
- `read_hash` at line 258 is assumed not to raise. If it did, a network that was already
  cached would be skipped for this request.
- Registry.DeriveNameOfStem: handles the POSIX `/` separator only. On Windows,
  `os.path.basename` would also split at `\\`.
- The unload, reload and compile side effects at lines 182-187 and 293-299: only the
  decision and the recorded strings are modelled.
- Timers, progress bars and logging at lines 51-60, 465-471 and 523-527: no effect on state.
- The debug re-raise at lines 391-395: with debugging off, a `RuntimeError` is counted and
  processing continues.
- `network.py` is not part of this model. This covers:
  - the multipliers a new `Network` starts with, which are a parameter;
  - `mentioned_name` and `mtime`;
  - the declaration of the `bundle_embeddings` attribute in `network.py`. Its value, set at
    line 161, is modelled as `Network.embeddings`.
- Python's `str.lower` is modelled for ASCII letters only.
- A layer always has a weight; the `hasattr(self, 'weight')` test at line 367 is taken as
  true.
- A negative `lora_in_memory_limit` is not modelled. The limit is a natural number; a
  negative one would raise from `next(iter(...))` on an empty cache.
- A non-empty multiplier list shorter than the request is a precondition (`Covered`). The
  code would raise `IndexError` in two places. The first is line 171, reached only when
  the model is compiled and the recorded list has the request's length. The second is
  lines 269-271 (the te, unet and dyn multipliers), reached for every name that loaded. The same lookup at line 251 sits
  inside the handler at lines 259-263, which would skip the name instead.
- The layers of the text encoders, UNet and transformer are one flat sequence. The model
  uses the same sequence, in the same order, for activation and deactivation.
- Patch.RoundTripLayer: needs two extra conditions. First, each module's delta must not
  depend on the live weight. Second, the layer must carry no snapshot backup. With
  weight-dependent deltas, the marker path subtracts a delta computed against the patched
  weight, so the code does not restore the weight exactly.
- Patch.RoundTrip: needs the same two conditions as Patch.RoundTripLayer.

=== FILE: fifo.dfy ===
/** The in-memory adapter cache `lora_cache`: a Python dict used as a FIFO, so its
    iteration order is insertion order and reads never change that order. */
module Fifo {
  import opened Seqs

  datatype FifoCache<V> = FifoCache(order: seq<string>, entries: map<string, V>)

  /** The insertion order lists every key once and nothing else. */
  ghost predicate Valid<V>(c: FifoCache<V>) {
    && Distinct(c.order)
    && (forall k :: k in c.entries <==> k in c.order)
  }

  /** `cache[k] = v`: a new key goes to the back, an existing key keeps its place. */
  function Put<V>(c: FifoCache<V>, k: string, v: V): (r: FifoCache<V>)
    ensures Valid(c) ==> Valid(r)
    ensures r.entries == c.entries[k := v]
    ensures k in c.entries ==> r.order == c.order
    ensures k !in c.entries ==> r.order == c.order + [k]
  {
    if k in c.entries then c.(entries := c.entries[k := v])
    else FifoCache(c.order + [k], c.entries[k := v])
  }

  /** A valid cache holds as many entries as its order lists. */
  lemma ValidSize<V>(c: FifoCache<V>)
    requires Valid(c)
    ensures |c.entries| == |c.order|
  {
    DistinctCard(c.order);
    assert c.entries.Keys == Elements(c.order);
  }

  /** Dropping the oldest entry keeps the cache valid. */
  lemma DropFirstValid<V>(c: FifoCache<V>)
    requires Valid(c) && |c.order| > 0
    ensures Valid(FifoCache(c.order[1..], c.entries - {c.order[0]}))
  {
    var smaller := FifoCache(c.order[1..], c.entries - {c.order[0]});
    forall k ensures k in smaller.entries <==> k in smaller.order {
      if k in c.order[1..] {
        var i :| 0 <= i < |c.order[1..]| && c.order[1..][i] == k;
        assert c.order[i + 1] == k;
      }
      if k in c.order && k != c.order[0] {
        var i :| 0 <= i < |c.order| && c.order[i] == k;
        assert c.order[1..][i - 1] == k;
      }
    }
  }

  /** The newest `limit` keys of an insertion order, or all of them when there are no
      more. */
  function Newest(order: seq<string>, limit: nat): seq<string> {
    if |order| <= limit then order else order[|order| - limit..]
  }

  /** The newest keys are a suffix of the order. */
  lemma NewestIsSuffix(order: seq<string>, limit: nat)
    ensures |Newest(order, limit)| <= |order|
    ensures Newest(order, limit) == order[|order| - |Newest(order, limit)|..]
  {
  }

  /** Over the limit, dropping the first key leaves the same newest keys. */
  lemma NewestDropFirst(order: seq<string>, limit: nat)
    requires |order| > limit
    ensures Newest(order[1..], limit) == Newest(order, limit)
  {
  }

  /** `while len(cache) > limit: cache.pop(next(iter(cache)))`: what the loop leaves is
      the newest `limit` entries (all of them when there are no more), each with its
      value. `EvictUnderLimit` and `EvictPopsOldest` show this is the loop's result. */
  function Evict<V>(c: FifoCache<V>, limit: nat): (r: FifoCache<V>)
    requires Valid(c)
    ensures Valid(r)
    ensures r.order == Newest(c.order, limit)
    ensures forall k :: k in r.entries ==> k in c.entries && r.entries[k] == c.entries[k]
    ensures |r.entries| <= limit
  {
    var kept := Newest(c.order, limit);
    NewestIsSuffix(c.order, limit);
    DistinctSuffix(c.order, |c.order| - |kept|);
    var r := FifoCache(kept, map k | k in kept :: c.entries[k]);
    ValidSize(r);
    r
  }

  /** The loop's exit: under the limit nothing is evicted. */
  lemma EvictUnderLimit<V>(c: FifoCache<V>, limit: nat)
    requires Valid(c) && |c.order| <= limit
    ensures Evict(c, limit) == c
  {
    var r := Evict(c, limit);
    assert r.entries.Keys == c.entries.Keys;
  }

  /** `cache.pop(next(iter(cache)))`: drop the earliest-inserted entry. */
  function PopOldest<V>(c: FifoCache<V>): (r: FifoCache<V>)
    requires Valid(c) && |c.order| > 0
    ensures Valid(r)
    ensures r.order == c.order[1..]
    ensures forall k :: k in r.entries ==> k in c.entries && r.entries[k] == c.entries[k]
  {
    DropFirstValid(c);
    FifoCache(c.order[1..], c.entries - {c.order[0]})
  }

  /** Two valid caches with the same order whose values all come from a third are the
      same cache. */
  lemma SameOrderSameCache<V>(a: FifoCache<V>, b: FifoCache<V>, c: FifoCache<V>)
    requires Valid(a) && Valid(b) && a.order == b.order
    requires forall k :: k in a.entries ==> k in c.entries && a.entries[k] == c.entries[k]
    requires forall k :: k in b.entries ==> k in c.entries && b.entries[k] == c.entries[k]
    ensures a == b
  {
    assert a.entries.Keys == b.entries.Keys;
  }

  /** The loop's body: over the limit, the result is that of first popping the
      earliest-inserted entry. */
  lemma EvictPopsOldest<V>(c: FifoCache<V>, limit: nat)
    requires Valid(c) && |c.order| > limit
    ensures Evict(c, limit) == Evict(PopOldest(c), limit)
  {
    var smaller := PopOldest(c);
    NewestDropFirst(c.order, limit);
    SameOrderSameCache(Evict(c, limit), Evict(smaller, limit), c);
  }

  /** Eviction goes strictly by age: when an entry survives, every entry inserted after
      it survives too. */
  lemma EvictOldestFirst<V>(c: FifoCache<V>, limit: nat, i: nat, j: nat)
    requires Valid(c) && i <= j < |c.order| && c.order[i] in Evict(c, limit).entries
    ensures c.order[j] in Evict(c, limit).entries
  {
    var r := Evict(c, limit);
    assert c.order[i] in r.order;
    NewestIsSuffix(c.order, limit);
    SuffixKeepsLater(c.order, r.order, i, j);
  }

  /** Eviction after appending to an older cache's order: an older entry survives only
      if every appended entry does. */
  lemma EvictKeepsAppended<V, W>(c0: FifoCache<W>, c: FifoCache<V>, limit: nat, o: string, n: string)
    requires Valid(c0) && Valid(c) && |c0.order| <= |c.order| && c.order[..|c0.order|] == c0.order
    requires o in c0.entries && o in Evict(c, limit).entries
    requires n in c.entries && n !in c0.entries
    ensures n in Evict(c, limit).entries
  {
    var i :| 0 <= i < |c0.order| && c0.order[i] == o;
    assert c.order[i] == o;
    var j :| 0 <= j < |c.order| && c.order[j] == n;
    EvictOldestFirst(c, limit, i, j);
  }
}

=== FILE: keys.dfy ===
/** Raw-key normalisation of the adapter loader: a raw state-dict key becomes either a
    bundled-embedding entry or a (layer prefix, sub-key) pair. */
module Keys {
  import opened Strings

  datatype Normalized =
    | Bundle(embedding: string, vector: string)
    | LayerKey(prefix: string, sub: string)
      /** `load_safetensors` raises here (`IndexError` / `ValueError` on a dot-less key) */
    | Malformed

  const BundleSegment := "bundle_emb"
  const LoraPrefix := "lora_"

  /** The PEFT to kohya relabel of the two low-rank factors. */
  function Relabel(s: string): string {
    ReplaceAll(ReplaceAll(s, "lora_A", "lora_down"), "lora_B", "lora_up")
  }

  /** Normalise one raw key. Keys with more than five segments are the PEFT dialect:
      the layer prefix is all but the last two segments joined by `_` (with `lora_`
      put in front unless already there), the sub-key the last two segments with the
      factor names relabelled. Other keys split at their first dot. */
  function NormalizeKey(key: string): (r: Normalized)
    ensures r.Malformed? <==> '.' !in key
    ensures r.Bundle? <==> '.' in key && Split(key, '.')[0] == BundleSegment
    ensures r.LayerKey? && |Split(key, '.')| > 5 ==> StartsWith(r.prefix, LoraPrefix) && '.' !in r.prefix
  {
    SplitCount(key, '.');
    var parts := Split(key, '.');
    if parts[0] == BundleSegment then
      if |parts| < 2 then Malformed
      else Bundle(parts[1], if |parts| == 2 then parts[1] else Join(".", parts[2..]))
    else if |parts| > 5 then
      var head := Join("_", parts[..|parts| - 2]);
      JoinNoDot("_", parts[..|parts| - 2]);
      var prefix := if StartsWith(head, LoraPrefix) then head else LoraPrefix + head;
      assert StartsWith(prefix, LoraPrefix);
      LayerKey(prefix, Relabel(Join(".", parts[|parts| - 2..])))
    else if |parts| == 1 then Malformed
    else LayerKey(parts[0], Join(".", parts[1..]))
  }

  lemma {:induction false} JoinNoDot(sep: string, parts: seq<string>)
    requires '.' !in sep
    requires forall i :: 0 <= i < |parts| ==> '.' !in parts[i]
    ensures '.' !in Join(sep, parts)
    decreases |parts|
  {
    if |parts| > 1 {
      JoinNoDot(sep, parts[1..]);
    }
  }

  /** A key of two to five segments that is not a bundled embedding splits at its
      first dot: the prefix is dot-free and prefix + "." + sub-key is the key. */
  lemma ShortKeySplitsAtFirstDot(key: string)
    requires 2 <= |Split(key, '.')| <= 5 && Split(key, '.')[0] != BundleSegment
    ensures NormalizeKey(key).LayerKey?
    ensures key == NormalizeKey(key).prefix + "." + NormalizeKey(key).sub
    ensures '.' !in NormalizeKey(key).prefix
  {
    var parts := Split(key, '.');
    JoinSplit(key, '.');
    assert parts == [parts[0]] + parts[1..];
    JoinAppend(".", [parts[0]], parts[1..]);
  }

  /** A key of more than five segments is `head.a.b` with dot-free `a` and `b`; its
      layer prefix is `head` with every dot turned into `_` (and `lora_` in front unless
      already there), and its sub-key is `a.b` relabelled. */
  lemma LongKeyShape(key: string)
    requires |Split(key, '.')| > 5 && Split(key, '.')[0] != BundleSegment
    ensures NormalizeKey(key).LayerKey?
    ensures var parts := Split(key, '.');
            var n := |parts|;
            var head := Join(".", parts[..n - 2]);
            var tail := parts[n - 2] + "." + parts[n - 1];
            var flat := Subst(head, '.', '_');
            && key == head + "." + tail
            && NormalizeKey(key).prefix == (if StartsWith(flat, LoraPrefix) then flat else LoraPrefix + flat)
            && NormalizeKey(key).sub == Relabel(tail)
  {
    var parts := Split(key, '.');
    var n := |parts|;
    JoinSplit(key, '.');
    assert parts == parts[..n - 2] + parts[n - 2..];
    JoinAppend(".", parts[..n - 2], parts[n - 2..]);
    assert parts[n - 2..][1..] == [parts[n - 1]];
    JoinSubst(parts[..n - 2]);
  }

  /** A bundled-embedding key is `bundle_emb.<embedding>` (the vector name is then the
      embedding name) or `bundle_emb.<embedding>.<vector>` with a dot-free embedding name. */
  lemma BundleKeyShape(key: string)
    requires NormalizeKey(key).Bundle?
    ensures var r := NormalizeKey(key);
            '.' !in r.embedding &&
            (key == BundleSegment + "." + r.embedding + "." + r.vector ||
             (key == BundleSegment + "." + r.embedding && r.vector == r.embedding))
  {
    var parts := Split(key, '.');
    JoinSplit(key, '.');
    if |parts| == 2 {
      assert parts[1..] == [parts[1]];
    } else {
      assert parts == [parts[0], parts[1]] + parts[2..];
      JoinAppend(".", [parts[0], parts[1]], parts[2..]);
      assert [parts[0], parts[1]][1..] == [parts[1]];
    }
  }

  /** A sub-key starting with the PEFT down factor name gets the kohya one. */
  lemma RelabelDownFront(rest: string)
    requires 'A' !in rest && 'B' !in rest
    ensures Relabel("lora_A" + rest) == "lora_down" + rest
  {
    ReplaceAtFront("lora_A", rest, "lora_down");
    CharAbsent(rest, "lora_A", 5);
    assert 'B' !in "lora_down" + rest;
    CharAbsent("lora_down" + rest, "lora_B", 5);
  }

  /** A sub-key starting with the PEFT up factor name gets the kohya one. */
  lemma RelabelUpFront(rest: string)
    requires 'A' !in rest && 'B' !in rest
    ensures Relabel("lora_B" + rest) == "lora_up" + rest
  {
    assert 'A' !in "lora_B" + rest;
    CharAbsent("lora_B" + rest, "lora_A", 5);
    ReplaceAtFront("lora_B", rest, "lora_up");
    CharAbsent(rest, "lora_B", 5);
  }

  /** Sub-keys without either factor name are left alone. */
  lemma RelabelOther(s: string)
    requires !Occurs(s, "lora_A") && !Occurs(s, "lora_B")
    ensures Relabel(s) == s
  {
  }
}

=== FILE: loader.dfy ===
/** `load_safetensors`: group the raw keys of an adapter file per target layer,
    build one module per layer by first-match dispatch over the module types, and
    keep the result in the FIFO cache. */
module Loader {
  import opened Wrappers
  import opened Strings
  import opened Networks
  import opened Keys
  import opened Fifo

  /** The three maps the key loop fills: unmatched raw key -> converted key,
      converted layer key -> grouped weights, embedding -> vector -> tensor. */
  datatype Grouping = Grouping(
    unmatched: map<string, string>,
    matched: map<string, NetworkWeights>,
    embeddings: map<string, map<string, Tensor>>)

  const NoKeys := Grouping(map[], map[], map[])

  /** One raw state-dict entry. */
  type Item = (string, Tensor)

  /** The raw key lands in the matched layer `k`. */
  predicate MatchesLayer(key: string, convert: string -> KeyMatch, k: string) {
    var n := NormalizeKey(key);
    n.LayerKey? && convert(n.prefix).matched && convert(n.prefix).key == k
  }

  /** The raw key is a layer key whose prefix `KeyConvert` placed on some layer. */
  predicate Placed(key: string, convert: string -> KeyMatch) {
    var n := NormalizeKey(key);
    n.LayerKey? && convert(n.prefix).matched
  }

  /** The raw key is a layer key whose prefix `KeyConvert` could not place. */
  predicate Unplaced(key: string, convert: string -> KeyMatch) {
    var n := NormalizeKey(key);
    n.LayerKey? && !convert(n.prefix).matched
  }

  /** One iteration of the key loop; `None` when the key makes `load_safetensors` raise. */
  function GroupStep(g: Grouping, key: string, w: Tensor, convert: string -> KeyMatch): Option<Grouping> {
    match NormalizeKey(key)
    case Malformed => None
    case Bundle(e, v) =>
      var vectors := if e in g.embeddings then g.embeddings[e] else map[];
      Some(g.(embeddings := g.embeddings[e := vectors[v := w]]))
    case LayerKey(prefix, sub) =>
      var km := convert(prefix);
      if !km.matched then Some(g.(unmatched := g.unmatched[key := km.key]))
      else
        var nw := if km.key in g.matched then g.matched[km.key] else NetworkWeights(key, km.key, map[]);
        Some(g.(matched := g.matched[km.key := nw.(w := nw.w[sub := w])]))
  }

  /** The key loop over the state dict, in its iteration order. */
  function GroupKeys(items: seq<Item>, convert: string -> KeyMatch): Option<Grouping>
    decreases |items|
  {
    if |items| == 0 then Some(NoKeys)
    else
      match GroupKeys(items[..|items| - 1], convert)
      case None => None
      case Some(g) => GroupStep(g, items[|items| - 1].0, items[|items| - 1].1, convert)
  }

  /** The loop raises exactly when some raw key has no dot. */
  lemma {:induction false} GroupKeysRaises(items: seq<Item>, convert: string -> KeyMatch)
    ensures GroupKeys(items, convert).None? <==> exists i :: 0 <= i < |items| && '.' !in items[i].0
    decreases |items|
  {
    if |items| > 0 {
      var init := items[..|items| - 1];
      GroupKeysRaises(init, convert);
      if exists i :: 0 <= i < |init| && '.' !in init[i].0 {
        var i :| 0 <= i < |init| && '.' !in init[i].0;
        assert items[i] == init[i];
      }
      if exists i :: 0 <= i < |items| && '.' !in items[i].0 {
        var i :| 0 <= i < |items| && '.' !in items[i].0;
        if i < |init| { assert items[i] == init[i]; }
      }
    }
  }

  /** The loop over a non-empty dict is the loop over all but the last key, then one step. */
  lemma GroupKeysSnoc(items: seq<Item>, convert: string -> KeyMatch)
    requires |items| > 0 && GroupKeys(items, convert).Some?
    ensures GroupKeys(items[..|items| - 1], convert).Some?
    ensures GroupKeys(items, convert)
         == GroupStep(GroupKeys(items[..|items| - 1], convert).value, items[|items| - 1].0, items[|items| - 1].1, convert)
  {
  }

  /** One step groups layer `k` exactly when it was grouped before or the key maps to it. */
  lemma GroupStepMatched(g: Grouping, key: string, w: Tensor, convert: string -> KeyMatch, k: string)
    requires GroupStep(g, key, w, convert).Some?
    ensures k in GroupStep(g, key, w, convert).value.matched <==> k in g.matched || MatchesLayer(key, convert, k)
  {
  }

  /** One step reports `raw` unmatched exactly when it was before or the key is `raw` and unplaced. */
  lemma GroupStepUnmatched(g: Grouping, key: string, w: Tensor, convert: string -> KeyMatch, raw: string)
    requires GroupStep(g, key, w, convert).Some?
    ensures raw in GroupStep(g, key, w, convert).value.unmatched
        <==> raw in g.unmatched || (key == raw && Unplaced(raw, convert))
  {
  }

  /** A layer is grouped exactly when some raw key maps to it; bundled-embedding keys
      and unplaced keys never create or extend a layer. */
  lemma {:induction false} GroupKeysMatched(items: seq<Item>, convert: string -> KeyMatch, k: string)
    requires GroupKeys(items, convert).Some?
    ensures k in GroupKeys(items, convert).value.matched
        <==> exists i :: 0 <= i < |items| && MatchesLayer(items[i].0, convert, k)
    decreases |items|
  {
    if |items| > 0 {
      var init := items[..|items| - 1];
      var last := items[|items| - 1];
      GroupKeysSnoc(items, convert);
      GroupKeysMatched(init, convert, k);
      GroupStepMatched(GroupKeys(init, convert).value, last.0, last.1, convert, k);
      SomeKeyMatchesSnoc(items, init, convert, k);
    }
  }

  /** Some key of a non-empty dict maps to `k` exactly when some key of all but the
      last does, or the last one does. */
  lemma SomeKeyMatchesSnoc(items: seq<Item>, init: seq<Item>, convert: string -> KeyMatch, k: string)
    requires |items| > 0 && init == items[..|items| - 1]
    ensures (exists i :: 0 <= i < |items| && MatchesLayer(items[i].0, convert, k))
        <==> (exists i :: 0 <= i < |init| && MatchesLayer(init[i].0, convert, k))
             || MatchesLayer(items[|items| - 1].0, convert, k)
  {
    if exists i :: 0 <= i < |items| && MatchesLayer(items[i].0, convert, k) {
      var i :| 0 <= i < |items| && MatchesLayer(items[i].0, convert, k);
      if i < |init| { assert init[i] == items[i]; }
    }
  }

  /** A raw key is reported unmatched exactly when it is a layer key that
      `KeyConvert` could not place. */
  lemma {:induction false} GroupKeysUnmatched(items: seq<Item>, convert: string -> KeyMatch, raw: string)
    requires GroupKeys(items, convert).Some?
    ensures raw in GroupKeys(items, convert).value.unmatched
        <==> Unplaced(raw, convert) && exists i :: 0 <= i < |items| && items[i].0 == raw
    decreases |items|
  {
    if |items| > 0 {
      var init := items[..|items| - 1];
      var last := items[|items| - 1];
      GroupKeysSnoc(items, convert);
      GroupKeysUnmatched(init, convert, raw);
      GroupStepUnmatched(GroupKeys(init, convert).value, last.0, last.1, convert, raw);
      SomeKeyIsSnoc(items, init, raw);
    }
  }

  /** Some key of a non-empty dict is `raw` exactly when some key of all but the last
      is, or the last one is. */
  lemma SomeKeyIsSnoc(items: seq<Item>, init: seq<Item>, raw: string)
    requires |items| > 0 && init == items[..|items| - 1]
    ensures (exists i :: 0 <= i < |items| && items[i].0 == raw)
        <==> (exists i :: 0 <= i < |init| && init[i].0 == raw) || items[|items| - 1].0 == raw
  {
    if exists i :: 0 <= i < |items| && items[i].0 == raw {
      var i :| 0 <= i < |items| && items[i].0 == raw;
      if i < |init| { assert init[i] == items[i]; }
    }
  }

  /** `bundle_embeddings[e][v]` exists exactly when some raw key is the bundled
      embedding `e`, vector `v`. */
  lemma {:induction false} GroupKeysEmbeddings(items: seq<Item>, convert: string -> KeyMatch, e: string, v: string)
    requires GroupKeys(items, convert).Some?
    ensures var g := GroupKeys(items, convert).value;
            ((e in g.embeddings && v in g.embeddings[e])
             <==> exists i :: 0 <= i < |items| && NormalizeKey(items[i].0) == Bundle(e, v))
    decreases |items|
  {
    if |items| > 0 {
      var init := items[..|items| - 1];
      var last := items[|items| - 1];
      GroupKeysSnoc(items, convert);
      GroupKeysEmbeddings(init, convert, e, v);
      GroupStepEmbeddings(GroupKeys(init, convert).value, last.0, last.1, convert, e, v);
      SomeKeyBundlesSnoc(items, init, e, v);
    }
  }

  /** One step stores vector `v` of embedding `e` exactly when it was stored before or
      the key is that vector. */
  lemma GroupStepEmbeddings(g: Grouping, key: string, w: Tensor, convert: string -> KeyMatch, e: string, v: string)
    requires GroupStep(g, key, w, convert).Some?
    ensures var g' := GroupStep(g, key, w, convert).value;
            (e in g'.embeddings && v in g'.embeddings[e])
            <==> (e in g.embeddings && v in g.embeddings[e]) || NormalizeKey(key) == Bundle(e, v)
  {
  }

  /** Some key of a non-empty dict is vector `v` of embedding `e` exactly when some key
      of all but the last is, or the last one is. */
  lemma SomeKeyBundlesSnoc(items: seq<Item>, init: seq<Item>, e: string, v: string)
    requires |items| > 0 && init == items[..|items| - 1]
    ensures (exists i :: 0 <= i < |items| && NormalizeKey(items[i].0) == Bundle(e, v))
        <==> (exists i :: 0 <= i < |init| && NormalizeKey(init[i].0) == Bundle(e, v))
             || NormalizeKey(items[|items| - 1].0) == Bundle(e, v)
  {
    if exists i :: 0 <= i < |items| && NormalizeKey(items[i].0) == Bundle(e, v) {
      var i :| 0 <= i < |items| && NormalizeKey(items[i].0) == Bundle(e, v);
      if i < |init| { assert init[i] == items[i]; }
    }
  }

  /** The last key written for a layer and sub-key determines the stored tensor. */
  lemma LastWriteWins(items: seq<Item>, convert: string -> KeyMatch, key: string, w: Tensor)
    requires GroupKeys(items + [(key, w)], convert).Some?
    requires NormalizeKey(key).LayerKey? && convert(NormalizeKey(key).prefix).matched
    ensures var n := NormalizeKey(key);
            var g := GroupKeys(items + [(key, w)], convert).value;
            var k := convert(n.prefix).key;
            k in g.matched && g.matched[k].w[n.sub] == w
  {
    assert (items + [(key, w)])[..|items|] == items;
  }

  /** Where a raw key's tensor is stored: a sub-key of a grouped layer, or a vector of a
      bundled embedding. */
  datatype Slot = LayerSlot(layer: string, sub: string) | VectorSlot(embedding: string, vector: string)

  /** The raw key writes its tensor to the slot. */
  predicate Writes(key: string, convert: string -> KeyMatch, slot: Slot) {
    match slot
    case LayerSlot(k, sub) => MatchesLayer(key, convert, k) && NormalizeKey(key).sub == sub
    case VectorSlot(e, v) => NormalizeKey(key) == Bundle(e, v)
  }

  /** The slot's content after grouping, if any. */
  function Stored(g: Grouping, slot: Slot): Option<Tensor> {
    match slot
    case LayerSlot(k, sub) =>
      if k in g.matched && sub in g.matched[k].w then Some(g.matched[k].w[sub]) else None
    case VectorSlot(e, v) =>
      if e in g.embeddings && v in g.embeddings[e] then Some(g.embeddings[e][v]) else None
  }

  /** The position of the last item writing to the slot, or -1. */
  function LastWrite(items: seq<Item>, convert: string -> KeyMatch, slot: Slot): (j: int)
    ensures -1 <= j < |items|
    ensures j >= 0 ==> Writes(items[j].0, convert, slot)
    ensures forall i :: j < i < |items| ==> !Writes(items[i].0, convert, slot)
    decreases |items|
  {
    if |items| == 0 then -1
    else if Writes(items[|items| - 1].0, convert, slot) then |items| - 1
    else
      var init := items[..|items| - 1];
      var j := LastWrite(init, convert, slot);
      assert forall i :: j < i < |init| ==> init[i] == items[i];
      j
  }

  /** One step fills the slot with the key's tensor when the key writes to it, and leaves
      it alone otherwise. */
  lemma GroupStepStored(g: Grouping, key: string, w: Tensor, convert: string -> KeyMatch, slot: Slot)
    requires GroupStep(g, key, w, convert).Some?
    ensures Stored(GroupStep(g, key, w, convert).value, slot)
         == if Writes(key, convert, slot) then Some(w) else Stored(g, slot)
  {
  }

  /** Every slot holds the tensor of the last item writing to it, and is empty when no
      item writes to it: for a layer, the sub-key map holds exactly the sub-keys of its
      keys with their last values; for an embedding, likewise its vectors. */
  lemma {:induction false} GroupKeysStored(items: seq<Item>, convert: string -> KeyMatch, slot: Slot)
    requires GroupKeys(items, convert).Some?
    ensures var j := LastWrite(items, convert, slot);
            Stored(GroupKeys(items, convert).value, slot) == (if j >= 0 then Some(items[j].1) else None)
    decreases |items|
  {
    if |items| > 0 {
      var init := items[..|items| - 1];
      var last := items[|items| - 1];
      GroupKeysSnoc(items, convert);
      GroupKeysStored(init, convert, slot);
      GroupStepStored(GroupKeys(init, convert).value, last.0, last.1, convert, slot);
      var j := LastWrite(init, convert, slot);
      if j >= 0 {
        assert init[j] == items[j];
      }
    }
  }

  /** Item `i` is the first whose key groups under layer `k`. */
  predicate FirstMatchAt(items: seq<Item>, convert: string -> KeyMatch, k: string, i: int) {
    && 0 <= i < |items| && MatchesLayer(items[i].0, convert, k)
    && forall j :: 0 <= j < i ==> !MatchesLayer(items[j].0, convert, k)
  }

  lemma FirstMatchExtend(items: seq<Item>, init: seq<Item>, convert: string -> KeyMatch, k: string, i: int)
    requires |items| > 0 && init == items[..|items| - 1] && FirstMatchAt(init, convert, k, i)
    ensures FirstMatchAt(items, convert, k, i)
  {
    assert forall j :: 0 <= j <= i ==> items[j] == init[j];
  }

  lemma FirstMatchLast(items: seq<Item>, init: seq<Item>, convert: string -> KeyMatch, k: string)
    requires |items| > 0 && init == items[..|items| - 1] && MatchesLayer(items[|items| - 1].0, convert, k)
    requires !exists i :: 0 <= i < |init| && MatchesLayer(init[i].0, convert, k)
    ensures FirstMatchAt(items, convert, k, |items| - 1)
  {
    assert forall j :: 0 <= j < |init| ==> items[j] == init[j];
  }

  /** One step keeps the keys of a layer grouped before, and files a new layer under the
      step's own raw key. */
  lemma GroupStepKeys(g: Grouping, key: string, w: Tensor, convert: string -> KeyMatch, k: string)
    requires GroupStep(g, key, w, convert).Some? && k in GroupStep(g, key, w, convert).value.matched
    ensures var nw := GroupStep(g, key, w, convert).value.matched[k];
            if k in g.matched then nw.networkKey == g.matched[k].networkKey && nw.sdKey == g.matched[k].sdKey
            else nw.networkKey == key && nw.sdKey == k && MatchesLayer(key, convert, k)
  {
  }

  /** A grouped layer is filed under its converted key and remembers the raw key of the
      first item that reached it. */
  lemma {:induction false} GroupKeysFirstKey(items: seq<Item>, convert: string -> KeyMatch, k: string)
    requires GroupKeys(items, convert).Some? && k in GroupKeys(items, convert).value.matched
    ensures var nw := GroupKeys(items, convert).value.matched[k];
            && nw.sdKey == k
            && exists i :: FirstMatchAt(items, convert, k, i) && nw.networkKey == items[i].0
    decreases |items|
  {
    var init := items[..|items| - 1];
    var last := items[|items| - 1];
    GroupKeysSnoc(items, convert);
    var g := GroupKeys(init, convert).value;
    GroupStepKeys(g, last.0, last.1, convert, k);
    if k in g.matched {
      GroupKeysFirstKey(init, convert, k);
      var i :| FirstMatchAt(init, convert, k, i) && g.matched[k].networkKey == init[i].0;
      FirstMatchExtend(items, init, convert, k, i);
      assert items[i] == init[i];
    } else {
      GroupKeysMatched(init, convert, k);
      FirstMatchLast(items, init, convert, k);
    }
  }

  /** The types accepting the bundle. */
  predicate Accepts(kinds: seq<ModuleKind>, accepts: (ModuleKind, NetworkWeights) -> bool, w: NetworkWeights) {
    exists i :: 0 <= i < |kinds| && accepts(kinds[i], w)
  }

  /** Try the module types in order and keep the first that accepts the bundle. */
  function Dispatch(kinds: seq<ModuleKind>, accepts: (ModuleKind, NetworkWeights) -> bool, w: NetworkWeights): (r: Option<Module>)
    ensures r.Some? <==> Accepts(kinds, accepts, w)
    ensures r.Some? ==> r.value.weights == w
    ensures r.Some? ==>
      exists i :: (0 <= i < |kinds| && kinds[i] == r.value.kind && accepts(kinds[i], w) &&
                  forall j :: 0 <= j < i ==> !accepts(kinds[j], w))
  {
    if |kinds| == 0 then None
    else if accepts(kinds[0], w) then Some(Module(kinds[0], w))
    else
      var r := Dispatch(kinds[1..], accepts, w);
      assert Accepts(kinds, accepts, w) ==> Accepts(kinds[1..], accepts, w) by {
        if Accepts(kinds, accepts, w) {
          var i :| 0 <= i < |kinds| && accepts(kinds[i], w);
          assert kinds[1..][i - 1] == kinds[i];
        }
      }
      if r.Some? then
        assert exists i :: (0 <= i < |kinds| && kinds[i] == r.value.kind && accepts(kinds[i], w) &&
                           forall j :: 0 <= j < i ==> !accepts(kinds[j], w)) by {
          var i :| 0 <= i < |kinds[1..]| && kinds[1..][i] == r.value.kind && accepts(kinds[1..][i], w) &&
            forall j :: 0 <= j < i ==> !accepts(kinds[1..][j], w);
          assert forall j :: 1 <= j < i + 1 ==> kinds[j] == kinds[1..][j - 1];
        }
        r
      else r
  }

  /** One module per grouped layer that some module type accepts. */
  function BuildModules(matched: map<string, NetworkWeights>, accepts: (ModuleKind, NetworkWeights) -> bool): map<string, Module> {
    map k | k in matched && Dispatch(ModuleTypes, accepts, matched[k]).Some? :: Dispatch(ModuleTypes, accepts, matched[k]).value
  }

  /** A grouped layer gets a module exactly when one of the eight types accepts it, and
      the module is the one of the first accepting type in the fixed order. */
  lemma BuildModulesFirstMatch(matched: map<string, NetworkWeights>, accepts: (ModuleKind, NetworkWeights) -> bool, k: string)
    ensures var mods := BuildModules(matched, accepts);
            k in mods <==> k in matched && Accepts(ModuleTypes, accepts, matched[k])
    ensures var mods := BuildModules(matched, accepts);
            k in mods ==>
              && mods[k].weights == matched[k]
              && exists i :: 0 <= i < |ModuleTypes| && ModuleTypes[i] == mods[k].kind && accepts(ModuleTypes[i], matched[k])
                   && forall j :: 0 <= j < i ==> !accepts(ModuleTypes[j], matched[k])
  {
  }

  datatype LoadOutcome =
    | LoadRaised        // an exception escapes `load_safetensors`
    | NotLoaded         // it returns None
    | Loaded(net: Network)

  datatype LoadResult = LoadResult(outcome: LoadOutcome, cache: FifoCache<Network>)

  /** Some raw key of the file is placed on a layer of the base model. */
  predicate AnyMatch(items: seq<Item>, convert: string -> KeyMatch) {
    exists i :: 0 <= i < |items| && Placed(items[i].0, convert)
  }

  /** `load_safetensors(name, ...)`: nothing when no model is loaded; the cached network
      for a cached name, without reading the file; otherwise the grouped and dispatched
      network, kept in the cache exactly when at least one key matched a layer. */
  function LoadSafetensors(
    name: string, cache: FifoCache<Network>, sdLoaded: bool, items: seq<Item>,
    convert: string -> KeyMatch, accepts: (ModuleKind, NetworkWeights) -> bool, initial: Mults): (r: LoadResult)
    ensures !sdLoaded ==> r == LoadResult(NotLoaded, cache)
    ensures sdLoaded && name in cache.entries ==> r == LoadResult(Loaded(cache.entries[name]), cache)
    ensures sdLoaded && name !in cache.entries ==>
      && (r.outcome.LoadRaised? <==> exists i :: 0 <= i < |items| && '.' !in items[i].0)
      && (r.outcome.NotLoaded? <==> GroupKeys(items, convert).Some? && !AnyMatch(items, convert))
    ensures !r.outcome.Loaded? ==> r.cache == cache
    ensures r.outcome.Loaded? && name !in cache.entries ==>
      && r.outcome.net.name == name
      && r.cache == Put(cache, name, r.outcome.net)
      && (forall k :: k in r.outcome.net.modules ==> exists i :: 0 <= i < |items| && MatchesLayer(items[i].0, convert, k))
    ensures r.outcome.Loaded? && name !in cache.entries ==>
      && GroupKeys(items, convert).Some?
      && r.outcome.net.modules == BuildModules(GroupKeys(items, convert).value.matched, accepts)
      && r.outcome.net.embeddings == GroupKeys(items, convert).value.embeddings
      && r.outcome.net.mults == initial
  {
    if !sdLoaded then LoadResult(NotLoaded, cache)
    else if name in cache.entries then LoadResult(Loaded(cache.entries[name]), cache)
    else
      GroupKeysRaises(items, convert);
      match GroupKeys(items, convert)
      case None => LoadResult(LoadRaised, cache)
      case Some(g) =>
        assert |g.matched| == 0 <==> !AnyMatch(items, convert) by {
          if |g.matched| != 0 {
            var k :| k in g.matched;
            GroupKeysMatched(items, convert, k);
          }
          if AnyMatch(items, convert) {
            var i :| 0 <= i < |items| && Placed(items[i].0, convert);
            GroupKeysMatched(items, convert, convert(NormalizeKey(items[i].0).prefix).key);
          }
        }
        if |g.matched| == 0 then LoadResult(NotLoaded, cache)
        else
          var net := Network(name, BuildModules(g.matched, accepts), g.embeddings, initial);
          assert forall k :: k in net.modules ==> exists i :: 0 <= i < |items| && MatchesLayer(items[i].0, convert, k) by {
            forall k | k in net.modules ensures exists i :: 0 <= i < |items| && MatchesLayer(items[i].0, convert, k) {
              GroupKeysMatched(items, convert, k);
            }
          }
          LoadResult(Loaded(net), Put(cache, name, net))
  }
}

=== FILE: networks.dfy ===
/** The entities the adapter core works on: weight bundles, modules, loaded networks.
    A tensor is modelled as one integer: the core only adds, negates and stores
    tensors, and those act coordinate-wise, so one coordinate stands for all. */
module Networks {

  type Tensor = int

  /** The adapter module types, in the order the loader tries them. */
  datatype ModuleKind = LoraType | HadaType | Ia3Type | OftType | LokrType | FullType | NormType | GLoraType

  /** The fixed dispatch order of `module_types`. */
  const ModuleTypes: seq<ModuleKind> :=
    [LoraType, HadaType, Ia3Type, OftType, LokrType, FullType, NormType, GLoraType]

  /** The raw weights grouped for one target layer: the first raw key seen for the
      layer, the converted layer key, and the sub-key -> tensor map. */
  datatype NetworkWeights = NetworkWeights(networkKey: string, sdKey: string, w: map<string, Tensor>)

  /** A module built by the first module type that accepted a weight bundle. */
  datatype Module = Module(kind: ModuleKind, weights: NetworkWeights)

  /** Per-activation multipliers: text encoder, main network, and the dynamic-dimension value. */
  datatype Mults = Mults(te: real, unet: real, dyn: real)

  /** A loaded adapter: its modules keyed by target layer, the bundled embeddings
      keyed by embedding name then vector name, and its current multipliers. */
  datatype Network = Network(
    name: string,
    modules: map<string, Module>,
    embeddings: map<string, map<string, Tensor>>,
    mults: Mults)

  /** The result of `KeyConvert` on a layer prefix: the converted key, and whether a
      layer of the base model was found for it (`sd_module is not None`). */
  datatype KeyMatch = KeyMatch(key: string, matched: bool)
}

=== FILE: patch.dfy ===
/** The per-layer patch state machine: `network_backup_weights`, `network_calc_weights`,
    `network_apply_weights`, `network_activate` and `network_deactivate`. */
module Patch {
  import opened Wrappers
  import opened Seqs
  import opened Networks

  /** `network_weights_backup` / `network_bias_backup`: absent, the no-copy marker
      `True` (low-memory or fuse mode), or a snapshot of the original tensor. */
  datatype Backup = NoBackup | Marker | Snapshot(t: Tensor)

  /** One entry of `network_current_names`: `(name, te, unet, dyn)` of a loaded network. */
  datatype SigEntry = SigEntry(name: string, te: real, unet: real, dyn: real)

  type Signature = seq<SigEntry>

  /** A target layer of the base model with the attributes the patcher attaches to it. */
  datatype Layer = Layer(
    layerName: Option<string>,
    weight: Tensor,
    bias: Option<Tensor>,
    weightBackup: Backup,
    biasBackup: Backup,
    current: Signature)

  datatype PatchOptions = PatchOptions(lowMemory: bool, fuse: bool)

  /** `module.calc_updown(weight)`: raises `RuntimeError`, or returns the weight delta
      and the bias delta, each possibly `None`. */
  datatype CalcResult = CalcRaised | Computed(updown: Option<Tensor>, exBias: Option<Tensor>)

  type Calc = (Network, Module, Tensor) -> CalcResult

  /** `extra_network_lora.errors`: failures per network name. */
  type Errors = map<string, nat>

  /** The error counter of `x` (0 when absent). */
  function ErrorsOf(errs: Errors, x: string): nat {
    if x in errs then errs[x] else 0
  }

  /** A marker bias backup is only ever taken for a layer that has a bias. */
  predicate LayerOk(l: Layer) {
    l.biasBackup.Marker? ==> l.bias.Some?
  }

  /** `wanted_names`: one entry per loaded network, in load order. */
  function Wanted(loaded: seq<Network>): Signature {
    seq(|loaded|, i requires 0 <= i < |loaded| =>
      SigEntry(loaded[i].name, loaded[i].mults.te, loaded[i].mults.unet, loaded[i].mults.dyn))
  }

  /** Some loaded network has a module for the layer. */
  predicate Covers(loaded: seq<Network>, name: string) {
    exists i :: 0 <= i < |loaded| && name in loaded[i].modules
  }

  /** `network_backup_weights` for a named layer: when some loaded network covers it,
      take the weight backup if there is none yet and the wanted signature is
      non-empty, and the bias backup if there is none yet and the layer has a bias. */
  function TakeBackups(l: Layer, loaded: seq<Network>, wanted: Signature, opts: PatchOptions): Layer
    requires l.layerName.Some?
  {
    if |loaded| > 0 && Covers(loaded, l.layerName.value) then
      var noCopy := opts.fuse || opts.lowMemory;
      var wb := if l.weightBackup.NoBackup? && wanted != [] then (if noCopy then Marker else Snapshot(l.weight)) else l.weightBackup;
      var bb := if l.biasBackup.NoBackup? then
                  (match l.bias
                   case Some(b) => if noCopy then Marker else Snapshot(b)
                   case None => NoBackup)
                else l.biasBackup;
      l.(weightBackup := wb, biasBackup := bb)
    else l
  }

  /** One step of the delta accumulator: the running value and the new contribution
      are summed only when both are present; otherwise the contribution replaces it. */
  function Accumulate(acc: Option<Tensor>, c: Option<Tensor>): Option<Tensor> {
    if acc.Some? && c.Some? then Some(acc.value + c.value) else c
  }

  /** The summed weight delta, the summed bias delta, and the names of the networks
      whose module raised, in load order. */
  datatype Batch = Batch(updown: Option<Tensor>, exBias: Option<Tensor>, raised: seq<string>)

  /** `network_calc_weights`: ask every loaded network with a module for the layer. */
  function CalcWeights(name: string, weight: Tensor, loaded: seq<Network>, calcUpdown: Calc): Batch
    decreases |loaded|
  {
    if |loaded| == 0 then Batch(None, None, [])
    else
      var b := CalcWeights(name, weight, loaded[..|loaded| - 1], calcUpdown);
      var net := loaded[|loaded| - 1];
      if name !in net.modules then b
      else
        match calcUpdown(net, net.modules[name], weight)
        case CalcRaised => b.(raised := b.raised + [net.name])
        case Computed(u, e) => Batch(Accumulate(b.updown, u), Accumulate(b.exBias, e), b.raised)
  }

  /** The weight (or, with `bias`, the bias) delta each non-raising module returned, in load order. */
  function Contributions(name: string, weight: Tensor, loaded: seq<Network>, calcUpdown: Calc, bias: bool): seq<Option<Tensor>>
    decreases |loaded|
  {
    if |loaded| == 0 then []
    else
      var rest := Contributions(name, weight, loaded[..|loaded| - 1], calcUpdown, bias);
      var net := loaded[|loaded| - 1];
      if name !in net.modules then rest
      else
        match calcUpdown(net, net.modules[name], weight)
        case CalcRaised => rest
        case Computed(u, e) => rest + [if bias then e else u]
  }

  function Sum(xs: seq<Tensor>): Tensor {
    if |xs| == 0 then 0 else Sum(xs[..|xs| - 1]) + xs[|xs| - 1]
  }

  /** The index of the last missing contribution, or -1. */
  function LastNone(cs: seq<Option<Tensor>>): (k: int)
    ensures -1 <= k < |cs|
    ensures k >= 0 ==> cs[k].None?
    ensures forall j :: k < j < |cs| ==> cs[j].Some?
  {
    if |cs| == 0 then -1
    else if cs[|cs| - 1].None? then |cs| - 1
    else LastNone(cs[..|cs| - 1])
  }

  /** The values of a run of present contributions. */
  function Values(cs: seq<Option<Tensor>>): (xs: seq<Tensor>)
    requires forall j :: 0 <= j < |cs| ==> cs[j].Some?
    ensures |xs| == |cs|
    ensures forall j :: 0 <= j < |cs| ==> xs[j] == cs[j].value
  {
    seq(|cs|, j requires 0 <= j < |cs| => cs[j].value)
  }

  /** The reference meaning of the accumulator: the sum of the contributions after the
      last missing one, or nothing when the last contribution is missing (or there is none). */
  function TrailingSum(cs: seq<Option<Tensor>>): Option<Tensor> {
    var k := LastNone(cs) + 1;
    if k == |cs| then None else Some(Sum(Values(cs[k..])))
  }

  /** The accumulator as a fold over the contributions. */
  function Fold(cs: seq<Option<Tensor>>): Option<Tensor> {
    if |cs| == 0 then None else Accumulate(Fold(cs[..|cs| - 1]), cs[|cs| - 1])
  }

  lemma SumSnoc(xs: seq<Tensor>, x: Tensor)
    ensures Sum(xs + [x]) == Sum(xs) + x
  {
    assert (xs + [x])[..|xs|] == xs;
  }

  lemma ValuesSnoc(ds: seq<Option<Tensor>>, x: Tensor)
    requires forall j :: 0 <= j < |ds| ==> ds[j].Some?
    ensures Values(ds + [Some(x)]) == Values(ds) + [x]
  {
  }

  /** A present contribution after a run of present ones extends their sum. */
  lemma TrailingSumPresent(init: seq<Option<Tensor>>, x: Tensor)
    ensures TrailingSum(init + [Some(x)]) == Accumulate(TrailingSum(init), Some(x))
  {
    var cs := init + [Some(x)];
    var k := LastNone(init) + 1;
    assert cs[..|init|] == init;
    assert LastNone(cs) == LastNone(init);
    assert cs[k..] == init[k..] + [Some(x)];
    ValuesSnoc(init[k..], x);
    SumSnoc(Values(init[k..]), x);
    if k == |init| {
      assert Values(init[k..]) == [];
    }
  }

  /** Folding the accumulator is the trailing sum. */
  lemma {:induction false} FoldIsTrailingSum(cs: seq<Option<Tensor>>)
    ensures Fold(cs) == TrailingSum(cs)
    decreases |cs|
  {
    if |cs| > 0 {
      var init := cs[..|cs| - 1];
      var c := cs[|cs| - 1];
      FoldIsTrailingSum(init);
      assert cs == init + [c];
      if c.Some? {
        TrailingSumPresent(init, c.value);
      }
    }
  }

  /** `network_calc_weights` sums the deltas after the last module that returned none
      for it: a later `None` wipes every earlier delta. */
  lemma {:induction false} CalcWeightsSums(name: string, weight: Tensor, loaded: seq<Network>, calcUpdown: Calc)
    ensures CalcWeights(name, weight, loaded, calcUpdown).updown == TrailingSum(Contributions(name, weight, loaded, calcUpdown, false))
    ensures CalcWeights(name, weight, loaded, calcUpdown).exBias == TrailingSum(Contributions(name, weight, loaded, calcUpdown, true))
    decreases |loaded|
  {
    CalcWeightsFolds(name, weight, loaded, calcUpdown);
    FoldIsTrailingSum(Contributions(name, weight, loaded, calcUpdown, false));
    FoldIsTrailingSum(Contributions(name, weight, loaded, calcUpdown, true));
  }

  lemma {:induction false} CalcWeightsFolds(name: string, weight: Tensor, loaded: seq<Network>, calcUpdown: Calc)
    ensures CalcWeights(name, weight, loaded, calcUpdown).updown == Fold(Contributions(name, weight, loaded, calcUpdown, false))
    ensures CalcWeights(name, weight, loaded, calcUpdown).exBias == Fold(Contributions(name, weight, loaded, calcUpdown, true))
    decreases |loaded|
  {
    if |loaded| > 0 {
      CalcWeightsFolds(name, weight, loaded[..|loaded| - 1], calcUpdown);
      var rest := Contributions(name, weight, loaded[..|loaded| - 1], calcUpdown, false);
      var restB := Contributions(name, weight, loaded[..|loaded| - 1], calcUpdown, true);
      var net := loaded[|loaded| - 1];
      if name in net.modules && calcUpdown(net, net.modules[name], weight).Computed? {
        var c := calcUpdown(net, net.modules[name], weight);
        assert (rest + [c.updown])[..|rest|] == rest;
        assert (restB + [c.exBias])[..|restB|] == restB;
      }
    }
  }

  /** When every non-raising module returns a delta, the batch is their sum (the
      composition of several adapters at one layer is additive). */
  lemma AllPresentSums(cs: seq<Option<Tensor>>)
    requires |cs| > 0 && forall j :: 0 <= j < |cs| ==> cs[j].Some?
    ensures TrailingSum(cs) == Some(Sum(Values(cs)))
  {
    assert LastNone(cs) == -1;
    assert cs[0..] == cs;
  }

  /** A missing delta followed by one present delta leaves just that delta. */
  lemma NoneWipesEarlier(cs: seq<Option<Tensor>>, x: Tensor)
    ensures TrailingSum(cs + [None, Some(x)]) == Some(x)
  {
    var ds := cs + [None, Some(x)];
    assert LastNone(ds[..|ds| - 1]) == |cs|;
    assert ds[|cs| + 1..] == [Some(x)];
    assert Sum(Values([Some(x)])) == Sum([] + [x]);
  }

  /** `-t if deactivate else t`. */
  function Signed(t: Tensor, deactivate: bool): Tensor {
    if deactivate then -t else t
  }

  /** `network_apply_weights`: with no backup at all, nothing changes; otherwise the
      weight becomes its base plus the (possibly negated) delta, where the base is the
      snapshot or, for the marker, the live tensor; and the bias likewise, or `None`
      when there is no bias backup. */
  function ApplyWeights(l: Layer, updown: Option<Tensor>, exBias: Option<Tensor>, deactivate: bool): Layer
    requires LayerOk(l)
  {
    if l.weightBackup.NoBackup? && l.biasBackup.NoBackup? then l
    else
      var w :=
        match l.weightBackup
        case NoBackup => l.weight
        case Marker => l.weight + (match updown case Some(u) => Signed(u, deactivate) case None => 0)
        case Snapshot(s) => s + (match updown case Some(u) => Signed(u, deactivate) case None => 0);
      var b :=
        match l.biasBackup
        case NoBackup => None
        case Marker => Some(l.bias.value + (match exBias case Some(e) => Signed(e, deactivate) case None => 0))
        case Snapshot(s) => Some(s + (match exBias case Some(e) => Signed(e, deactivate) case None => 0));
      l.(weight := w, bias := b)
  }

  /** The delta a present optional tensor contributes (`None` contributes nothing). */
  function DeltaOf(d: Option<Tensor>): Tensor {
    d.GetOr(0)
  }

  /** One layer of `network_activate`, interrupt aside: an unnamed layer or a layer
      already at the wanted signature is skipped; otherwise backups are taken, the
      deltas of the loaded networks are summed and applied, and the layer records the
      wanted signature. Also returns the networks whose module raised. */
  function ActivateLayer(l: Layer, loaded: seq<Network>, opts: PatchOptions, calcUpdown: Calc): (r: (Layer, seq<string>))
    requires LayerOk(l)
    ensures LayerOk(r.0)
    ensures r.0.layerName == l.layerName
    ensures l.layerName.None? || l.current == Wanted(loaded) ==> r == (l, [])
    ensures l.layerName.Some? && l.current != Wanted(loaded) ==> r.0.current == Wanted(loaded)
  {
    if l.layerName.None? || l.current == Wanted(loaded) then (l, [])
    else
      var name := l.layerName.value;
      var wanted := Wanted(loaded);
      var lb := TakeBackups(l, loaded, wanted, opts);
      var batch := CalcWeights(name, l.weight, loaded, calcUpdown);
      var la := ApplyWeights(lb, batch.updown, batch.exBias, false);
      (la.(current := wanted), batch.raised)
  }

  /** The layer is named and not yet at the wanted signature, so activation patches it. */
  predicate Pending(l: Layer, loaded: seq<Network>) {
    l.layerName.Some? && l.current != Wanted(loaded)
  }

  /** Backups are taken at most once: an existing backup is kept; a missing weight
      backup is taken exactly when some loaded network covers the layer, and a missing
      bias backup exactly when it is covered and has a bias; each as the no-copy marker
      in low-memory or fuse mode and as a snapshot of the live tensor otherwise. */
  lemma ActivateLayerBackups(l: Layer, loaded: seq<Network>, opts: PatchOptions, calcUpdown: Calc)
    requires LayerOk(l) && Pending(l, loaded)
    ensures var r := ActivateLayer(l, loaded, opts, calcUpdown).0;
      && (l.weightBackup != NoBackup ==> r.weightBackup == l.weightBackup)
      && (l.biasBackup != NoBackup ==> r.biasBackup == l.biasBackup)
      && (l.weightBackup == NoBackup ==>
            r.weightBackup == (if Covers(loaded, l.layerName.value)
                               then (if opts.lowMemory || opts.fuse then Marker else Snapshot(l.weight))
                               else NoBackup))
      && (l.biasBackup == NoBackup ==>
            r.biasBackup == (if Covers(loaded, l.layerName.value) && l.bias.Some?
                             then (if opts.lowMemory || opts.fuse then Marker else Snapshot(l.bias.value))
                             else NoBackup))
  {
    var wanted := Wanted(loaded);
    if Covers(loaded, l.layerName.value) {
      assert |wanted| == |loaded| > 0;
    }
  }

  /** The live weight after activation: with a snapshot, snapshot + summed delta; with the
      marker, live weight + summed delta; without a weight backup it is left alone. */
  lemma ActivateLayerWeight(l: Layer, loaded: seq<Network>, opts: PatchOptions, calcUpdown: Calc)
    requires LayerOk(l) && Pending(l, loaded)
    ensures var r := ActivateLayer(l, loaded, opts, calcUpdown).0;
            var d := TrailingSum(Contributions(l.layerName.value, l.weight, loaded, calcUpdown, false));
            r.weight == (match r.weightBackup
                         case NoBackup => l.weight
                         case Marker => l.weight + DeltaOf(d)
                         case Snapshot(s) => s + DeltaOf(d))
  {
    CalcWeightsSums(l.layerName.value, l.weight, loaded, calcUpdown);
  }

  /** The bias after activation: with a bias backup, its base + summed bias delta; with a
      weight backup but no bias backup, `None`; with no backup at all, unchanged. */
  lemma ActivateLayerBias(l: Layer, loaded: seq<Network>, opts: PatchOptions, calcUpdown: Calc)
    requires LayerOk(l) && Pending(l, loaded)
    ensures var r := ActivateLayer(l, loaded, opts, calcUpdown).0;
            var e := TrailingSum(Contributions(l.layerName.value, l.weight, loaded, calcUpdown, true));
            r.bias == (if r.weightBackup.NoBackup? && r.biasBackup.NoBackup? then l.bias
                       else match r.biasBackup
                            case NoBackup => None
                            case Marker => Some(l.bias.value + DeltaOf(e))
                            case Snapshot(s) => Some(s + DeltaOf(e)))
  {
    CalcWeightsSums(l.layerName.value, l.weight, loaded, calcUpdown);
  }

  /** The module of loaded network `i` for the layer raised. */
  predicate RaisedAt(name: string, weight: Tensor, loaded: seq<Network>, calcUpdown: Calc, i: nat)
    requires i < |loaded|
  {
    name in loaded[i].modules && calcUpdown(loaded[i], loaded[i].modules[name], weight).CalcRaised?
  }

  /** A network is charged an error exactly when its module for the layer raised. */
  lemma {:induction false} CalcWeightsRaised(name: string, weight: Tensor, loaded: seq<Network>, calcUpdown: Calc, x: string)
    ensures x in CalcWeights(name, weight, loaded, calcUpdown).raised <==>
      exists i :: 0 <= i < |loaded| && loaded[i].name == x && RaisedAt(name, weight, loaded, calcUpdown, i)
    decreases |loaded|
  {
    if |loaded| > 0 {
      var m := |loaded| - 1;
      var init := loaded[..m];
      CalcWeightsRaised(name, weight, init, calcUpdown, x);
      assert forall i :: 0 <= i < m ==> init[i] == loaded[i];
      if exists i :: 0 <= i < |loaded| && loaded[i].name == x && RaisedAt(name, weight, loaded, calcUpdown, i) {
        var i :| 0 <= i < |loaded| && loaded[i].name == x && RaisedAt(name, weight, loaded, calcUpdown, i);
        if i < m {
          assert RaisedAt(name, weight, init, calcUpdown, i);
        }
      }
      if exists i :: 0 <= i < m && init[i].name == x && RaisedAt(name, weight, init, calcUpdown, i) {
        var i :| 0 <= i < m && init[i].name == x && RaisedAt(name, weight, init, calcUpdown, i);
        assert RaisedAt(name, weight, loaded, calcUpdown, i);
      }
    }
  }

  /** Every layer keeps the bias-marker invariant. */
  predicate AllOk(layers: seq<Layer>) {
    forall i :: 0 <= i < |layers| ==> LayerOk(layers[i])
  }

  /** The layers after a pass and the names of the networks charged an error, in order. */
  datatype Pass = Pass(layers: seq<Layer>, raised: seq<string>)

  /** The layer loop of `network_activate`; the interrupt flag is set from layer
      `interruptAt` on, and an interrupted layer is left as it was. */
  function ActivateAll(layers: seq<Layer>, loaded: seq<Network>, opts: PatchOptions, calcUpdown: Calc, interruptAt: nat): (p: Pass)
    requires AllOk(layers)
    ensures |p.layers| == |layers| && AllOk(p.layers)
    ensures forall i :: 0 <= i < |layers| ==>
      p.layers[i] == (if i >= interruptAt then layers[i] else ActivateLayer(layers[i], loaded, opts, calcUpdown).0)
    decreases |layers|
  {
    if |layers| == 0 then Pass([], [])
    else
      var n := |layers| - 1;
      var p := ActivateAll(layers[..n], loaded, opts, calcUpdown, interruptAt);
      if n >= interruptAt then Pass(p.layers + [layers[n]], p.raised)
      else
        var r := ActivateLayer(layers[n], loaded, opts, calcUpdown);
        Pass(p.layers + [r.0], p.raised + r.1)
  }

  /** Every layer is unnamed or already at the wanted signature. */
  predicate Settled(layers: seq<Layer>, loaded: seq<Network>) {
    forall i :: 0 <= i < |layers| ==> layers[i].layerName.None? || layers[i].current == Wanted(loaded)
  }

  /** A pass over settled layers changes nothing and charges no error. */
  lemma {:induction false} SettledPassIsIdle(layers: seq<Layer>, loaded: seq<Network>, opts: PatchOptions, calcUpdown: Calc, interruptAt: nat)
    requires AllOk(layers) && Settled(layers, loaded)
    ensures ActivateAll(layers, loaded, opts, calcUpdown, interruptAt) == Pass(layers, [])
    decreases |layers|
  {
    if |layers| > 0 {
      var n := |layers| - 1;
      SettledPassIsIdle(layers[..n], loaded, opts, calcUpdown, interruptAt);
      assert layers[..n] + [layers[n]] == layers;
    }
  }

  /** Activating twice with an unchanged loaded set: after an uninterrupted first pass,
      the second pass changes no layer and charges no error. */
  lemma ActivateIdempotent(layers: seq<Layer>, loaded: seq<Network>, opts: PatchOptions, calcUpdown: Calc, k1: nat, k2: nat)
    requires AllOk(layers) && k1 >= |layers|
    ensures var p := ActivateAll(layers, loaded, opts, calcUpdown, k1);
            ActivateAll(p.layers, loaded, opts, calcUpdown, k2) == Pass(p.layers, [])
  {
    var p := ActivateAll(layers, loaded, opts, calcUpdown, k1);
    SettledPassIsIdle(p.layers, loaded, opts, calcUpdown, k2);
  }

  /** `errors[name] = errors.get(name, 0) + 1` for every charged name, in order. */
  function Charge(errs: Errors, raised: seq<string>): Errors
    decreases |raised|
  {
    if |raised| == 0 then errs
    else
      var e := Charge(errs, raised[..|raised| - 1]);
      var x := raised[|raised| - 1];
      e[x := (if x in e then e[x] else 0) + 1]
  }

  /** Each network's error counter grows by the number of times it was charged. */
  lemma {:induction false} ChargeCounts(errs: Errors, raised: seq<string>, x: string)
    ensures ErrorsOf(Charge(errs, raised), x) == ErrorsOf(errs, x) + Count(raised, x)
    decreases |raised|
  {
    if |raised| > 0 {
      ChargeCounts(errs, raised[..|raised| - 1], x);
    }
  }

  /** The live layers and the per-network error counters. */
  datatype PatchState = PatchState(layers: seq<Layer>, errors: Errors)

  /** `network_activate`. */
  function NetworkActivate(st: PatchState, loaded: seq<Network>, opts: PatchOptions, calcUpdown: Calc, interruptAt: nat): (r: PatchState)
    requires AllOk(st.layers)
    ensures |r.layers| == |st.layers| && AllOk(r.layers)
    ensures forall i :: 0 <= i < |st.layers| && i < interruptAt && Pending(st.layers[i], loaded) ==>
      r.layers[i].current == Wanted(loaded)
    ensures forall i :: 0 <= i < |st.layers| && (i >= interruptAt || !Pending(st.layers[i], loaded)) ==>
      r.layers[i] == st.layers[i]
  {
    var p := ActivateAll(st.layers, loaded, opts, calcUpdown, interruptAt);
    PatchState(p.layers, Charge(st.errors, p.raised))
  }

  /** One layer of `network_deactivate`: a named layer gets the negated delta applied and
      an empty signature, whatever its signature was. */
  function DeactivateLayer(l: Layer, loaded: seq<Network>, calcUpdown: Calc): (r: (Layer, seq<string>))
    requires LayerOk(l)
    ensures LayerOk(r.0)
    ensures r.0.layerName == l.layerName
    ensures r.0.weightBackup == l.weightBackup && r.0.biasBackup == l.biasBackup
    ensures l.layerName.None? ==> r == (l, [])
    ensures l.layerName.Some? ==> r.0.current == []
  {
    if l.layerName.None? then (l, [])
    else
      var batch := CalcWeights(l.layerName.value, l.weight, loaded, calcUpdown);
      var la := ApplyWeights(l, batch.updown, batch.exBias, true);
      (la.(current := []), batch.raised)
  }

  /** The live weight after deactivation: base minus the summed delta. */
  lemma DeactivateLayerWeight(l: Layer, loaded: seq<Network>, calcUpdown: Calc)
    requires LayerOk(l) && l.layerName.Some?
    ensures var r := DeactivateLayer(l, loaded, calcUpdown).0;
            var d := TrailingSum(Contributions(l.layerName.value, l.weight, loaded, calcUpdown, false));
            r.weight == (match l.weightBackup
                         case NoBackup => l.weight
                         case Marker => l.weight - DeltaOf(d)
                         case Snapshot(s) => s - DeltaOf(d))
  {
    CalcWeightsSums(l.layerName.value, l.weight, loaded, calcUpdown);
  }

  /** The layer loop of `network_deactivate`. */
  function DeactivateAll(layers: seq<Layer>, loaded: seq<Network>, calcUpdown: Calc, interruptAt: nat): (p: Pass)
    requires AllOk(layers)
    ensures |p.layers| == |layers| && AllOk(p.layers)
    ensures forall i :: 0 <= i < |layers| ==>
      p.layers[i] == (if i >= interruptAt then layers[i] else DeactivateLayer(layers[i], loaded, calcUpdown).0)
    decreases |layers|
  {
    if |layers| == 0 then Pass([], [])
    else
      var n := |layers| - 1;
      var p := DeactivateAll(layers[..n], loaded, calcUpdown, interruptAt);
      if n >= interruptAt then Pass(p.layers + [layers[n]], p.raised)
      else
        var r := DeactivateLayer(layers[n], loaded, calcUpdown);
        Pass(p.layers + [r.0], p.raised + r.1)
  }

  /** `network_deactivate`: nothing at all unless low-memory mode is on. */
  function NetworkDeactivate(st: PatchState, loaded: seq<Network>, opts: PatchOptions, calcUpdown: Calc, interruptAt: nat): (r: PatchState)
    requires AllOk(st.layers)
    ensures !opts.lowMemory ==> r == st
    ensures |r.layers| == |st.layers| && AllOk(r.layers)
    ensures opts.lowMemory ==> forall i :: 0 <= i < |st.layers| && i < interruptAt && st.layers[i].layerName.Some? ==>
      r.layers[i].current == []
    ensures forall i :: 0 <= i < |st.layers| && (i >= interruptAt || st.layers[i].layerName.None?) ==>
      r.layers[i] == st.layers[i]
  {
    if !opts.lowMemory then st
    else
      var p := DeactivateAll(st.layers, loaded, calcUpdown, interruptAt);
      PatchState(p.layers, Charge(st.errors, p.raised))
  }

  /** The deltas do not depend on the weight they are computed against. */
  ghost predicate WeightIndependent(calcUpdown: Calc) {
    forall n, m, w1, w2 :: calcUpdown(n, m, w1) == calcUpdown(n, m, w2)
  }

  lemma {:induction false} ContributionsIndependent(name: string, w1: Tensor, w2: Tensor, loaded: seq<Network>, calcUpdown: Calc, bias: bool)
    requires WeightIndependent(calcUpdown)
    ensures Contributions(name, w1, loaded, calcUpdown, bias) == Contributions(name, w2, loaded, calcUpdown, bias)
    decreases |loaded|
  {
    if |loaded| > 0 {
      ContributionsIndependent(name, w1, w2, loaded[..|loaded| - 1], calcUpdown, bias);
      var net := loaded[|loaded| - 1];
      if name in net.modules {
        assert calcUpdown(net, net.modules[name], w1) == calcUpdown(net, net.modules[name], w2);
      }
    }
  }

  /** The layer was patched only through markers (or not at all): no snapshot, and a
      marker weight backup without a bias backup only on a bias-less layer. */
  predicate MarkerOnly(l: Layer) {
    && !l.weightBackup.Snapshot?
    && !l.biasBackup.Snapshot?
    && (l.weightBackup.Marker? && l.biasBackup.NoBackup? ==> l.bias.None?)
  }

  /** The low-memory round trip on one layer: activating a layer that is not yet at the
      wanted signature and then deactivating it restores its weight and bias, when the
      deltas are the same before and after patching. */
  lemma RoundTripLayer(l: Layer, loaded: seq<Network>, opts: PatchOptions, calcUpdown: Calc)
    requires LayerOk(l) && MarkerOnly(l) && opts.lowMemory && WeightIndependent(calcUpdown)
    requires l.layerName.Some? ==> l.current != Wanted(loaded)
    ensures var a := ActivateLayer(l, loaded, opts, calcUpdown).0;
            var d := DeactivateLayer(a, loaded, calcUpdown).0;
            d.weight == l.weight && d.bias == l.bias
  {
    if l.layerName.Some? {
      var name := l.layerName.value;
      var a := ActivateLayer(l, loaded, opts, calcUpdown).0;
      ActivateLayerBackups(l, loaded, opts, calcUpdown);
      ActivateLayerWeight(l, loaded, opts, calcUpdown);
      ActivateLayerBias(l, loaded, opts, calcUpdown);
      ContributionsIndependent(name, l.weight, a.weight, loaded, calcUpdown, false);
      ContributionsIndependent(name, l.weight, a.weight, loaded, calcUpdown, true);
      CalcWeightsSums(name, a.weight, loaded, calcUpdown);
    }
  }

  /** The low-memory round trip over the model: an activation pass followed by a
      deactivation pass, both interrupted at the same layer (or not at all), gives every
      layer its weight and bias back. */
  lemma RoundTrip(st: PatchState, loaded: seq<Network>, opts: PatchOptions, calcUpdown: Calc, interruptAt: nat)
    requires AllOk(st.layers) && opts.lowMemory && WeightIndependent(calcUpdown)
    requires forall i :: 0 <= i < |st.layers| ==> MarkerOnly(st.layers[i])
    requires forall i :: 0 <= i < |st.layers| && st.layers[i].layerName.Some? ==> st.layers[i].current != Wanted(loaded)
    ensures var a := NetworkActivate(st, loaded, opts, calcUpdown, interruptAt);
            var d := NetworkDeactivate(a, loaded, opts, calcUpdown, interruptAt);
            forall i :: 0 <= i < |st.layers| ==> d.layers[i].weight == st.layers[i].weight && d.layers[i].bias == st.layers[i].bias
  {
    var a := NetworkActivate(st, loaded, opts, calcUpdown, interruptAt);
    var p := ActivateAll(st.layers, loaded, opts, calcUpdown, interruptAt);
    var q := DeactivateAll(p.layers, loaded, calcUpdown, interruptAt);
    forall i | 0 <= i < |st.layers|
      ensures q.layers[i].weight == st.layers[i].weight && q.layers[i].bias == st.layers[i].bias
    {
      if i < interruptAt {
        RoundTripLayer(st.layers[i], loaded, opts, calcUpdown);
      }
    }
  }

  /** Deactivation does not look at the signature: deactivating a marker-backed layer
      twice subtracts its delta twice. */
  lemma DeactivateTwice(l: Layer, loaded: seq<Network>, calcUpdown: Calc)
    requires LayerOk(l) && l.layerName.Some? && l.weightBackup.Marker? && WeightIndependent(calcUpdown)
    ensures var d := TrailingSum(Contributions(l.layerName.value, l.weight, loaded, calcUpdown, false));
            var once := DeactivateLayer(l, loaded, calcUpdown).0;
            DeactivateLayer(once, loaded, calcUpdown).0.weight == l.weight - 2 * DeltaOf(d)
  {
    var once := DeactivateLayer(l, loaded, calcUpdown).0;
    DeactivateLayerWeight(l, loaded, calcUpdown);
    DeactivateLayerWeight(once, loaded, calcUpdown);
    ContributionsIndependent(l.layerName.value, l.weight, once.weight, loaded, calcUpdown, false);
  }

  /** How many of the loaded networks named `x` have a module for the layer that raised. */
  function RaisedCount(name: string, weight: Tensor, loaded: seq<Network>, calcUpdown: Calc, x: string, k: nat): nat
    requires k <= |loaded|
  {
    if k == 0 then 0
    else RaisedCount(name, weight, loaded, calcUpdown, x, k - 1)
         + (if loaded[k - 1].name == x && RaisedAt(name, weight, loaded, calcUpdown, k - 1) then 1 else 0)
  }

  /** Counting over a prefix of the loaded networks does not look past it. */
  lemma {:induction false} RaisedCountPrefix(name: string, weight: Tensor, loaded: seq<Network>, calcUpdown: Calc, x: string, m: nat, k: nat)
    requires k <= m <= |loaded|
    ensures RaisedCount(name, weight, loaded[..m], calcUpdown, x, k) == RaisedCount(name, weight, loaded, calcUpdown, x, k)
    decreases k
  {
    if k > 0 {
      RaisedCountPrefix(name, weight, loaded, calcUpdown, x, m, k - 1);
      assert loaded[..m][k - 1] == loaded[k - 1];
    }
  }

  /** One layer's calc charges `x` once per loaded network named `x` whose module raised. */
  lemma {:induction false} CalcWeightsCharges(name: string, weight: Tensor, loaded: seq<Network>, calcUpdown: Calc, x: string)
    ensures Count(CalcWeights(name, weight, loaded, calcUpdown).raised, x) == RaisedCount(name, weight, loaded, calcUpdown, x, |loaded|)
    decreases |loaded|
  {
    if |loaded| > 0 {
      var m := |loaded| - 1;
      var b := CalcWeights(name, weight, loaded[..m], calcUpdown);
      CalcWeightsCharges(name, weight, loaded[..m], calcUpdown, x);
      RaisedCountPrefix(name, weight, loaded, calcUpdown, x, m, m);
      CountAppend(b.raised, [loaded[m].name], x);
      assert [loaded[m].name][..0] == [];
    }
  }

  /** The number of (layer, module) pairs, over the layers a pass patches, whose calc for
      a network named `x` raised: with `activate`, the pending layers before the interrupt
      point; otherwise every named layer before it. */
  function PassRaisedCount(layers: seq<Layer>, loaded: seq<Network>, calcUpdown: Calc, interruptAt: nat, activate: bool, x: string): nat
    decreases |layers|
  {
    if |layers| == 0 then 0
    else
      var n := |layers| - 1;
      var l := layers[n];
      var patched := n < interruptAt && l.layerName.Some? && (activate ==> l.current != Wanted(loaded));
      PassRaisedCount(layers[..n], loaded, calcUpdown, interruptAt, activate, x)
      + (if patched then RaisedCount(l.layerName.value, l.weight, loaded, calcUpdown, x, |loaded|) else 0)
  }

  /** The activation pass charges `x` once per pair counted by `PassRaisedCount`. */
  lemma {:induction false} ActivateAllCharges(layers: seq<Layer>, loaded: seq<Network>, opts: PatchOptions, calcUpdown: Calc, interruptAt: nat, x: string)
    requires AllOk(layers)
    ensures Count(ActivateAll(layers, loaded, opts, calcUpdown, interruptAt).raised, x)
         == PassRaisedCount(layers, loaded, calcUpdown, interruptAt, true, x)
    decreases |layers|
  {
    if |layers| > 0 {
      var n := |layers| - 1;
      var p := ActivateAll(layers[..n], loaded, opts, calcUpdown, interruptAt);
      ActivateAllCharges(layers[..n], loaded, opts, calcUpdown, interruptAt, x);
      if n < interruptAt {
        var l := layers[n];
        var r := ActivateLayer(l, loaded, opts, calcUpdown);
        CountAppend(p.raised, r.1, x);
        if Pending(l, loaded) {
          CalcWeightsCharges(l.layerName.value, l.weight, loaded, calcUpdown, x);
        }
      }
    }
  }

  /** The deactivation pass charges `x` once per pair counted by `PassRaisedCount`. */
  lemma {:induction false} DeactivateAllCharges(layers: seq<Layer>, loaded: seq<Network>, calcUpdown: Calc, interruptAt: nat, x: string)
    requires AllOk(layers)
    ensures Count(DeactivateAll(layers, loaded, calcUpdown, interruptAt).raised, x)
         == PassRaisedCount(layers, loaded, calcUpdown, interruptAt, false, x)
    decreases |layers|
  {
    if |layers| > 0 {
      var n := |layers| - 1;
      var p := DeactivateAll(layers[..n], loaded, calcUpdown, interruptAt);
      DeactivateAllCharges(layers[..n], loaded, calcUpdown, interruptAt, x);
      if n < interruptAt {
        var l := layers[n];
        var r := DeactivateLayer(l, loaded, calcUpdown);
        CountAppend(p.raised, r.1, x);
        if l.layerName.Some? {
          CalcWeightsCharges(l.layerName.value, l.weight, loaded, calcUpdown, x);
        }
      }
    }
  }

  /** After `network_activate`, each network's error counter has grown by the number of
      (layer, module) pairs it patched whose calc for that network raised. */
  lemma NetworkActivateErrors(st: PatchState, loaded: seq<Network>, opts: PatchOptions, calcUpdown: Calc, interruptAt: nat, x: string)
    requires AllOk(st.layers)
    ensures ErrorsOf(NetworkActivate(st, loaded, opts, calcUpdown, interruptAt).errors, x)
         == ErrorsOf(st.errors, x) + PassRaisedCount(st.layers, loaded, calcUpdown, interruptAt, true, x)
  {
    var p := ActivateAll(st.layers, loaded, opts, calcUpdown, interruptAt);
    ChargeCounts(st.errors, p.raised, x);
    ActivateAllCharges(st.layers, loaded, opts, calcUpdown, interruptAt, x);
  }

  /** After `network_deactivate` in low-memory mode, each network's error counter has grown
      by the number of (layer, module) pairs it patched whose calc for that network raised;
      outside low-memory mode it is unchanged. */
  lemma NetworkDeactivateErrors(st: PatchState, loaded: seq<Network>, opts: PatchOptions, calcUpdown: Calc, interruptAt: nat, x: string)
    requires AllOk(st.layers)
    ensures ErrorsOf(NetworkDeactivate(st, loaded, opts, calcUpdown, interruptAt).errors, x)
         == ErrorsOf(st.errors, x) + (if opts.lowMemory then PassRaisedCount(st.layers, loaded, calcUpdown, interruptAt, false, x) else 0)
  {
    if opts.lowMemory {
      var p := DeactivateAll(st.layers, loaded, calcUpdown, interruptAt);
      ChargeCounts(st.errors, p.raised, x);
      DeactivateAllCharges(st.layers, loaded, calcUpdown, interruptAt, x);
    }
  }
}

=== FILE: recompile.dfy ===
/** `maybe_recompile_model`: decide whether the compiled model must be rebuilt because
    the requested adapters differ from the ones it was compiled with. */
module Recompile {
  import opened Wrappers

  /** The compiled-model state: whether the model is compiled, and the `name:multiplier`
      strings it was compiled with. */
  datatype CompiledState = CompiledState(isCompiled: bool, loraModel: seq<string>)

  datatype Decision = Decision(recompile: bool, state: Option<CompiledState>)

  /** An optional per-request multiplier list is either absent (empty, which Python
      treats as false) or long enough to index by every request position. */
  predicate MultsCover(ms: seq<real>, n: nat) {
    |ms| == 0 || |ms| >= n
  }

  /** `ms[i] if ms else default`. */
  function MultAt(ms: seq<real>, i: nat, default: real): real
    requires |ms| == 0 || i < |ms|
  {
    if |ms| == 0 then default else ms[i]
  }

  /** `f"{name}:{mult}"`, with the rendering of a multiplier left as a parameter. */
  function Tag(name: string, mult: real, showMult: real -> string): string {
    name + ":" + showMult(mult)
  }

  /** Position `i` of the request differs from the recorded string. */
  predicate DiffersAt(names: seq<string>, te: seq<real>, default: real, showMult: real -> string, recorded: seq<string>, i: nat)
    requires i < |names| && i < |recorded| && MultsCover(te, |names|)
  {
    recorded[i] != Tag(names[i], MultAt(te, i, default), showMult)
  }

  /** The request does not match the recorded list position by position. */
  predicate Mismatch(names: seq<string>, te: seq<real>, default: real, showMult: real -> string, recorded: seq<string>)
    requires MultsCover(te, |names|)
  {
    |names| != |recorded| ||
    exists i :: 0 <= i < |names| && DiffersAt(names, te, default, showMult, recorded, i)
  }

  /** The `for i, name in enumerate(names)` loop from position `i` on, stopping at the first difference. */
  function AnyDifferenceFrom(names: seq<string>, te: seq<real>, default: real, showMult: real -> string, recorded: seq<string>, i: nat): (found: bool)
    requires |names| == |recorded| && MultsCover(te, |names|) && i <= |names|
    ensures found <==> exists j :: i <= j < |names| && DiffersAt(names, te, default, showMult, recorded, j)
    decreases |names| - i
  {
    if i == |names| then false
    else if recorded[i] != Tag(names[i], MultAt(te, i, default), showMult) then
      assert DiffersAt(names, te, default, showMult, recorded, i);
      true
    else AnyDifferenceFrom(names, te, default, showMult, recorded, i + 1)
  }

  /** Recompile exactly when a compiled model exists and its recorded list differs in
      length or at some position; the recorded list is then emptied, and otherwise
      the state is left as it was. */
  function MaybeRecompile(state: Option<CompiledState>, names: seq<string>, te: seq<real>, default: real, showMult: real -> string): (d: Decision)
    requires MultsCover(te, |names|)
    ensures d.recompile <==> state.Some? && state.value.isCompiled && Mismatch(names, te, default, showMult, state.value.loraModel)
    ensures d.recompile ==> d.state == Some(state.value.(loraModel := []))
    ensures !d.recompile ==> d.state == state
  {
    if state.Some? && state.value.isCompiled then
      var recorded := state.value.loraModel;
      if |names| == |recorded| then
        if AnyDifferenceFrom(names, te, default, showMult, recorded, 0) then
          Decision(true, Some(state.value.(loraModel := [])))
        else Decision(false, state)
      else Decision(true, Some(state.value.(loraModel := [])))
    else Decision(false, state)
  }

  /** With the model compiled for exactly the requested list, nothing is recompiled. */
  lemma SameRequestNoRecompile(s: CompiledState, names: seq<string>, te: seq<real>, default: real, showMult: real -> string)
    requires MultsCover(te, |names|)
    requires |s.loraModel| == |names|
    requires forall i :: 0 <= i < |names| ==> s.loraModel[i] == Tag(names[i], MultAt(te, i, default), showMult)
    ensures MaybeRecompile(Some(s), names, te, default, showMult) == Decision(false, Some(s))
  {
  }
}

=== FILE: registry.dfy ===
/** `list_available_networks`: rebuild the name, alias, short-hash and forbidden-alias
    indices from the candidate files of the adapter directory. */
module Registry {
  import opened Wrappers
  import opened Strings
  import opened Seqs

  /** What `NetworkOnDisk` records about one file. */
  datatype DiskEntry = DiskEntry(name: string, alias: string, filename: string, shorthash: string)

  /** Probing one candidate: not a regular file, the constructor raised `OSError`, or an entry. */
  datatype Probe = NotAFile | Unreadable | Found(entry: DiskEntry)

  /** `lora_preferred_name`: `'filename'` keys the alias index by name, anything else by alias. */
  datatype NamePreference = PreferAlias | PreferFilename

  datatype Registry = Registry(
    networks: map<string, DiskEntry>,
    aliases: map<string, DiskEntry>,
    hashes: map<string, DiskEntry>,
    forbidden: set<string>)

  /** The aliases a rescan forbids before any file is seen. */
  const InitialForbidden: set<string> := {"none", "Addams"}

  /** The file name without directory and extension, dots turned into `_`. */
  function DeriveName(filename: string): string {
    Subst(StripExtension(Basename(filename)), '.', '_')
  }

  /** For `dir/stem.ext` with a plain extension and a stem that is not all dots, the
      derived name is the stem with its dots turned into `_`. */
  lemma DeriveNameOfStem(dir: string, stem: string, ext: string)
    requires '/' !in stem && '/' !in ext && '.' !in ext
    requires exists i :: 0 <= i < |stem| && stem[i] != '.'
    ensures DeriveName(dir + "/" + stem + "." + ext) == Subst(stem, '.', '_')
  {
    var p := dir + "/" + stem + "." + ext;
    var s := RFind(p, '/');
    assert p[|dir|] == '/';
    assert forall j :: |dir| < j < |p| ==> p[j] != '/' by {
      forall j | |dir| < j < |p| ensures p[j] != '/' {
        if j <= |dir| + |stem| {
          assert p[j] == stem[j - |dir| - 1];
        } else if j > |dir| + |stem| + 1 {
          assert p[j] == ext[j - |dir| - |stem| - 2];
        }
      }
    }
    assert s == |dir|;
    var b := Basename(p);
    assert b == stem + "." + ext;
    var d := RFind(b, '.');
    assert b[|stem|] == '.';
    assert forall j :: |stem| < j < |b| ==> b[j] != '.' by {
      forall j | |stem| < j < |b| ensures b[j] != '.' {
        assert b[j] == ext[j - |stem| - 1];
      }
    }
    assert d == |stem|;
    var i :| 0 <= i < |stem| && stem[i] != '.';
    assert b[i] == stem[i];
    assert b[..d] == stem;
  }

  /** The alias-index key of an entry under the preference. */
  function AliasKey(e: DiskEntry, pref: NamePreference): string {
    if pref.PreferFilename? then e.name else e.alias
  }

  /** The probe result of every candidate, in candidate order. */
  function Probes(cands: seq<string>, probe: (string, string) -> Probe): (ps: seq<Probe>)
    ensures |ps| == |cands|
    ensures forall i :: 0 <= i < |cands| ==> ps[i] == probe(DeriveName(cands[i]), cands[i])
  {
    seq(|cands|, i requires 0 <= i < |cands| => probe(DeriveName(cands[i]), cands[i]))
  }

  /** Index one probe result: a file that is missing or whose entry cannot be built is
      skipped; otherwise the entry is indexed by name, by alias key, and by short hash
      when it has one, and an alias already present forbids its lower-case form. */
  function AddEntry(r: Registry, p: Probe, pref: NamePreference): Registry {
    match p
    case NotAFile => r
    case Unreadable => r
    case Found(e) =>
      Registry(
        r.networks[e.name := e],
        r.aliases[AliasKey(e, pref) := e],
        if e.shorthash != "" then r.hashes[e.shorthash := e] else r.hashes,
        if e.alias in r.aliases then r.forbidden + {Lower(e.alias)} else r.forbidden)
  }

  /** What adding one probe result does to the alias index. */
  lemma AddEntryAliases(r: Registry, p: Probe, pref: NamePreference, a: string)
    ensures a in AddEntry(r, p, pref).aliases <==> a in r.aliases || (p.Found? && AliasKey(p.entry, pref) == a)
  {
  }

  /** What adding one probe result does to the forbidden set. */
  lemma AddEntryForbidden(r: Registry, p: Probe, pref: NamePreference, a: string)
    ensures a in AddEntry(r, p, pref).forbidden
        <==> a in r.forbidden || (p.Found? && p.entry.alias in r.aliases && a == Lower(p.entry.alias))
  {
  }

  /** Adding the probe results in order to indices that start empty, with the two
      seeded forbidden aliases. */
  function IndexAll(ps: seq<Probe>, pref: NamePreference): Registry
    decreases |ps|
  {
    if |ps| == 0 then Registry(map[], map[], map[], InitialForbidden)
    else AddEntry(IndexAll(ps[..|ps| - 1], pref), ps[|ps| - 1], pref)
  }

  /** A rescan: clear every index, seed the forbidden aliases, add the candidates in order. */
  function Scan(cands: seq<string>, probe: (string, string) -> Probe, pref: NamePreference): Registry {
    IndexAll(Probes(cands, probe), pref)
  }

  /** `available_network_aliases.get(name)`: the only index a request is resolved against. */
  function Resolve(r: Registry, name: string): (e: Option<DiskEntry>)
    ensures e.Some? <==> name in r.aliases
    ensures e.Some? ==> e.value == r.aliases[name]
  {
    if name in r.aliases then Some(r.aliases[name]) else None
  }

  /** The three indices keyed by entry: by name, by alias key, by short hash. */
  datatype Index = ByName | ByAlias | ByHash

  /** The key an entry is filed under in an index. */
  function KeyOf(e: DiskEntry, ix: Index, pref: NamePreference): string {
    match ix
    case ByName => e.name
    case ByAlias => AliasKey(e, pref)
    case ByHash => e.shorthash
  }

  function IndexMap(r: Registry, ix: Index): map<string, DiskEntry> {
    match ix
    case ByName => r.networks
    case ByAlias => r.aliases
    case ByHash => r.hashes
  }

  /** The position of the last probe result with an entry filed under `x`, or -1. */
  function LastFound(ps: seq<Probe>, ix: Index, pref: NamePreference, x: string): (k: int)
    ensures -1 <= k < |ps|
    ensures k >= 0 ==> ps[k].Found? && KeyOf(ps[k].entry, ix, pref) == x
    ensures forall j :: k < j < |ps| ==> !(ps[j].Found? && KeyOf(ps[j].entry, ix, pref) == x)
    decreases |ps|
  {
    if |ps| == 0 then -1
    else if ps[|ps| - 1].Found? && KeyOf(ps[|ps| - 1].entry, ix, pref) == x then |ps| - 1
    else LastFound(ps[..|ps| - 1], ix, pref, x)
  }

  /** After a scan, each index holds `x` exactly when some probed entry is filed under it
      (for the hash index, only a non-empty hash), and it maps `x` to the entry of the
      last such probe result: a later file overwrites an earlier one. */
  lemma {:induction false} ScanEntry(ps: seq<Probe>, pref: NamePreference, ix: Index, x: string)
    ensures var m := IndexMap(IndexAll(ps, pref), ix);
            var k := LastFound(ps, ix, pref, x);
            && (x in m <==> k >= 0 && (ix.ByHash? ==> x != ""))
            && (x in m ==> m[x] == ps[k].entry)
    decreases |ps|
  {
    if |ps| > 0 {
      var init := ps[..|ps| - 1];
      ScanEntry(init, pref, ix, x);
      var k := LastFound(init, ix, pref, x);
      if k >= 0 {
        assert ps[k] == init[k];
      }
    }
  }

  /** The forbidden set is never consulted: when an entry's alias collides with the alias
      key of an earlier one, the lower-cased alias is forbidden, yet under the alias
      preference the alias still resolves, to the last entry filed under it. */
  lemma CollidingAliasStillResolves(ps: seq<Probe>, i: nat, j: nat)
    requires i < j < |ps| && Collides(ps, PreferAlias, i, j)
    ensures var r := IndexAll(ps, PreferAlias);
            var a := ps[j].entry.alias;
            && Lower(a) in r.forbidden
            && Resolve(r, a) == Some(ps[LastFound(ps, ByAlias, PreferAlias, a)].entry)
  {
    var a := ps[j].entry.alias;
    assert ForbiddenIn(ps, PreferAlias, Lower(a));
    ScanForbidden(ps, PreferAlias, Lower(a));
    ScanEntry(ps, PreferAlias, ByAlias, a);
  }

  /** Some probe result names an entry called `name`. */
  predicate NamedIn(ps: seq<Probe>, name: string) {
    exists i :: 0 <= i < |ps| && ps[i].Found? && ps[i].entry.name == name
  }

  lemma NamedInSnoc(ps: seq<Probe>, name: string)
    requires |ps| > 0
    ensures NamedIn(ps, name) <==> NamedIn(ps[..|ps| - 1], name) || (ps[|ps| - 1].Found? && ps[|ps| - 1].entry.name == name)
  {
    var init := ps[..|ps| - 1];
    if NamedIn(ps, name) {
      var i :| 0 <= i < |ps| && ps[i].Found? && ps[i].entry.name == name;
      if i < |init| {
        assert init[i] == ps[i];
      }
    }
    if NamedIn(init, name) {
      var i :| 0 <= i < |init| && init[i].Found? && init[i].entry.name == name;
      assert ps[i] == init[i];
    }
  }

  /** After a scan, a name is indexed exactly when some candidate probed to an entry of that name. */
  lemma {:induction false} ScanNetworks(ps: seq<Probe>, pref: NamePreference, n: string)
    ensures n in IndexAll(ps, pref).networks <==> NamedIn(ps, n)
    decreases |ps|
  {
    if |ps| > 0 {
      ScanNetworks(ps[..|ps| - 1], pref, n);
      NamedInSnoc(ps, n);
    }
  }

  /** Some probe result has an entry whose alias key is `a`. */
  predicate AliasedIn(ps: seq<Probe>, pref: NamePreference, a: string) {
    exists i :: 0 <= i < |ps| && ps[i].Found? && AliasKey(ps[i].entry, pref) == a
  }

  lemma AliasedInSnoc(ps: seq<Probe>, pref: NamePreference, a: string)
    requires |ps| > 0
    ensures AliasedIn(ps, pref, a) <==> AliasedIn(ps[..|ps| - 1], pref, a) || (ps[|ps| - 1].Found? && AliasKey(ps[|ps| - 1].entry, pref) == a)
  {
    var init := ps[..|ps| - 1];
    if AliasedIn(ps, pref, a) {
      var i :| 0 <= i < |ps| && ps[i].Found? && AliasKey(ps[i].entry, pref) == a;
      if i < |init| {
        assert init[i] == ps[i];
      }
    }
    if AliasedIn(init, pref, a) {
      var i :| 0 <= i < |init| && init[i].Found? && AliasKey(init[i].entry, pref) == a;
      assert ps[i] == init[i];
    }
  }

  /** After a scan, the alias index holds exactly the alias keys (names or aliases, by
      preference) of the probed entries. */
  lemma {:induction false} ScanAliases(ps: seq<Probe>, pref: NamePreference, a: string)
    ensures a in IndexAll(ps, pref).aliases <==> AliasedIn(ps, pref, a)
    decreases |ps|
  {
    if |ps| > 0 {
      ScanAliases(ps[..|ps| - 1], pref, a);
      AliasedInSnoc(ps, pref, a);
      AddEntryAliases(IndexAll(ps[..|ps| - 1], pref), ps[|ps| - 1], pref, a);
    }
  }

  /** Some probe result has an entry with short hash `h`. */
  predicate HashedIn(ps: seq<Probe>, h: string) {
    exists i :: 0 <= i < |ps| && ps[i].Found? && ps[i].entry.shorthash == h
  }

  lemma HashedInSnoc(ps: seq<Probe>, h: string)
    requires |ps| > 0
    ensures HashedIn(ps, h) <==> HashedIn(ps[..|ps| - 1], h) || (ps[|ps| - 1].Found? && ps[|ps| - 1].entry.shorthash == h)
  {
    var init := ps[..|ps| - 1];
    if HashedIn(ps, h) {
      var i :| 0 <= i < |ps| && ps[i].Found? && ps[i].entry.shorthash == h;
      if i < |init| {
        assert init[i] == ps[i];
      }
    }
    if HashedIn(init, h) {
      var i :| 0 <= i < |init| && init[i].Found? && init[i].entry.shorthash == h;
      assert ps[i] == init[i];
    }
  }

  /** After a scan, the hash index holds exactly the non-empty short hashes of the probed entries. */
  lemma {:induction false} ScanHashes(ps: seq<Probe>, pref: NamePreference, h: string)
    ensures h in IndexAll(ps, pref).hashes <==> h != "" && HashedIn(ps, h)
    decreases |ps|
  {
    if |ps| > 0 {
      ScanHashes(ps[..|ps| - 1], pref, h);
      HashedInSnoc(ps, h);
    }
  }

  /** Probe result `j`'s alias collides with the alias key of the earlier entry `i`. */
  predicate Collides(ps: seq<Probe>, pref: NamePreference, i: nat, j: nat)
    requires i < j < |ps|
  {
    ps[i].Found? && ps[j].Found? && AliasKey(ps[i].entry, pref) == ps[j].entry.alias
  }

  /** Some entry whose alias collided with an earlier alias key lower-cases to `a`. */
  predicate ForbiddenIn(ps: seq<Probe>, pref: NamePreference, a: string) {
    exists i, j :: 0 <= i < j < |ps| && Collides(ps, pref, i, j) && a == Lower(ps[j].entry.alias)
  }

  /** The last probe result's alias collides with an earlier alias key. */
  predicate LastCollides(ps: seq<Probe>, pref: NamePreference, a: string)
    requires |ps| > 0
  {
    var p := ps[|ps| - 1];
    p.Found? && AliasedIn(ps[..|ps| - 1], pref, p.entry.alias) && a == Lower(p.entry.alias)
  }

  lemma ForbiddenInSnoc(ps: seq<Probe>, pref: NamePreference, a: string)
    requires |ps| > 0
    ensures ForbiddenIn(ps, pref, a) <==> ForbiddenIn(ps[..|ps| - 1], pref, a) || LastCollides(ps, pref, a)
  {
    if ForbiddenIn(ps, pref, a) {
      ForbiddenInSnocSplit(ps, pref, a);
    }
    if ForbiddenIn(ps[..|ps| - 1], pref, a) {
      ForbiddenInGrows(ps, pref, a);
    }
    if LastCollides(ps, pref, a) {
      LastCollidesForbids(ps, pref, a);
    }
  }

  lemma ForbiddenInSnocSplit(ps: seq<Probe>, pref: NamePreference, a: string)
    requires |ps| > 0 && ForbiddenIn(ps, pref, a)
    ensures ForbiddenIn(ps[..|ps| - 1], pref, a) || LastCollides(ps, pref, a)
  {
    var init := ps[..|ps| - 1];
    var last := |ps| - 1;
    var i, j :| 0 <= i < j < |ps| && Collides(ps, pref, i, j) && a == Lower(ps[j].entry.alias);
    assert init[i] == ps[i];
    if j < last {
      assert init[j] == ps[j];
      assert Collides(init, pref, i, j);
    } else {
      assert AliasedIn(init, pref, ps[last].entry.alias);
    }
  }

  lemma ForbiddenInGrows(ps: seq<Probe>, pref: NamePreference, a: string)
    requires |ps| > 0 && ForbiddenIn(ps[..|ps| - 1], pref, a)
    ensures ForbiddenIn(ps, pref, a)
  {
    var init := ps[..|ps| - 1];
    var i, j :| 0 <= i < j < |init| && Collides(init, pref, i, j) && a == Lower(init[j].entry.alias);
    assert ps[i] == init[i] && ps[j] == init[j];
    assert Collides(ps, pref, i, j);
  }

  lemma LastCollidesForbids(ps: seq<Probe>, pref: NamePreference, a: string)
    requires |ps| > 0 && LastCollides(ps, pref, a)
    ensures ForbiddenIn(ps, pref, a)
  {
    var init := ps[..|ps| - 1];
    var last := |ps| - 1;
    var i :| 0 <= i < |init| && init[i].Found? && AliasKey(init[i].entry, pref) == ps[last].entry.alias;
    assert ps[i] == init[i];
    assert Collides(ps, pref, i, last);
  }

  /** After a scan, the forbidden aliases are the two seeded ones plus the lower-cased
      alias of every entry whose alias was already a key of the alias index when it was
      added. Nothing consults this set when a name is resolved. */
  lemma {:induction false} ScanForbidden(ps: seq<Probe>, pref: NamePreference, a: string)
    ensures a in IndexAll(ps, pref).forbidden <==> a in InitialForbidden || ForbiddenIn(ps, pref, a)
    decreases |ps|
  {
    if |ps| > 0 {
      var init := ps[..|ps| - 1];
      var p := ps[|ps| - 1];
      ScanForbidden(init, pref, a);
      ForbiddenInSnoc(ps, pref, a);
      AddEntryForbidden(IndexAll(init, pref), p, pref, a);
      if p.Found? {
        ScanAliases(init, pref, p.entry.alias);
      }
    }
  }

  /** The names of the probed entries, in candidate order. */
  function FoundNames(ps: seq<Probe>): seq<string>
    decreases |ps|
  {
    if |ps| == 0 then []
    else
      var rest := FoundNames(ps[..|ps| - 1]);
      match ps[|ps| - 1]
      case Found(e) => rest + [e.name]
      case _ => rest
  }

  lemma {:induction false} FoundNamesElements(ps: seq<Probe>, pref: NamePreference)
    ensures Elements(FoundNames(ps)) == IndexAll(ps, pref).networks.Keys
    decreases |ps|
  {
    if |ps| > 0 {
      FoundNamesElements(ps[..|ps| - 1], pref);
    }
  }

  /** Unreadable and missing files are skipped without stopping the scan: when the
      probed entries carry distinct names, the scan indexes exactly as many networks
      as there are probed entries. */
  lemma ScanCount(ps: seq<Probe>, pref: NamePreference)
    requires Distinct(FoundNames(ps))
    ensures |IndexAll(ps, pref).networks| == |FoundNames(ps)|
  {
    FoundNamesElements(ps, pref);
    DistinctCard(FoundNames(ps));
  }
}

=== FILE: seqs.dfy ===
/** Small facts about sequences used by the registry, the cache and the loader. */
module Seqs {

  /** No element occurs twice. */
  predicate Distinct<T(==)>(s: seq<T>) {
    forall i, j :: 0 <= i < j < |s| ==> s[i] != s[j]
  }

  /** The set of elements of `s`. */
  function Elements<T>(s: seq<T>): set<T> {
    set x | x in s
  }

  /** A sequence without repetitions has as many elements as its set. */
  lemma {:induction false} DistinctCard<T>(s: seq<T>)
    requires Distinct(s)
    ensures |Elements(s)| == |s|
  {
    if |s| > 0 {
      DistinctCard(s[1..]);
      assert Elements(s) == Elements(s[1..]) + {s[0]};
      assert s[0] !in Elements(s[1..]) by {
        forall i | 0 <= i < |s[1..]| ensures s[1..][i] != s[0] {
          assert s[1..][i] == s[i + 1];
        }
      }
    } else {
      assert Elements(s) == {};
    }
  }

  /** Number of occurrences of `x` in `s`. */
  function Count<T(==)>(s: seq<T>, x: T): nat {
    if |s| == 0 then 0
    else Count(s[..|s| - 1], x) + (if s[|s| - 1] == x then 1 else 0)
  }

  /** The index of the last occurrence of `x` in `s`. */
  function LastIndexOf<T(==)>(s: seq<T>, x: T): (i: nat)
    requires x in s
    ensures i < |s| && s[i] == x
    ensures forall j :: i < j < |s| ==> s[j] != x
  {
    if s[|s| - 1] == x then |s| - 1
    else
      assert x in s[..|s| - 1] by {
        var k :| 0 <= k < |s| && s[k] == x;
        assert s[..|s| - 1][k] == x;
      }
      LastIndexOf(s[..|s| - 1], x)
  }

  /** Occurrences in a concatenation add up. */
  lemma {:induction false} CountAppend<T>(a: seq<T>, b: seq<T>, x: T)
    ensures Count(a + b, x) == Count(a, x) + Count(b, x)
    decreases |b|
  {
    if |b| > 0 {
      var n := |b| - 1;
      CountAppend(a, b[..n], x);
      assert (a + b)[..|a + b| - 1] == a + b[..n];
      assert (a + b)[|a + b| - 1] == b[n];
    } else {
      assert a + b == a;
    }
  }

  /** In a sequence without repetitions, a suffix that holds some element holds every
      element after it. */
  lemma SuffixKeepsLater(all: seq<string>, kept: seq<string>, i: nat, j: nat)
    requires Distinct(all) && |kept| <= |all| && kept == all[|all| - |kept|..]
    requires i <= j < |all| && all[i] in kept
    ensures all[j] in kept
  {
    var drop := |all| - |kept|;
    var t :| 0 <= t < |kept| && kept[t] == all[i];
    assert all[drop + t] == all[i];
    assert kept[j - drop] == all[j];
  }

  /** A suffix of a sequence without repetitions has none either. */
  lemma DistinctSuffix<T>(s: seq<T>, n: nat)
    requires Distinct(s) && n <= |s|
    ensures Distinct(s[n..])
  {
    forall i, j | 0 <= i < j < |s[n..]| ensures s[n..][i] != s[n..][j] {
      assert s[n..][i] == s[n + i] && s[n..][j] == s[n + j];
    }
  }
}

=== FILE: session.dfy ===
/** `network_load`: resolve the requested names (rescanning the adapter directory once if
    any is unknown), decide on recompilation, load each adapter through the cache, set its
    multipliers, and evict the oldest cache entries beyond the in-memory limit. */
module Session {
  import opened Wrappers
  import opened Seqs
  import opened Networks
  import opened Fifo
  import opened Loader
  import opened Registry
  import opened Recompile

  /** The options `network_load` consults. */
  datatype Options = Options(preference: NamePreference, inMemoryLimit: nat, defaultMultiplier: real)

  /** Everything outside the module: the candidate files of the adapter directory and
      their probe, the state-dict reader, the key converter, module acceptance, whether a
      base model is loaded, the multipliers a new `Network` starts with, and the rendering
      of a multiplier in `f"{name}:{mult}"`. */
  datatype Environment = Environment(
    candidates: seq<string>,
    probe: (string, string) -> Probe,
    read: string -> seq<Item>,
    convert: string -> KeyMatch,
    accepts: (ModuleKind, NetworkWeights) -> bool,
    sdLoaded: bool,
    initial: Mults,
    showMult: real -> string)

  /** The module-level state `network_load` reads and writes. */
  datatype State = State(
    registry: Registry,
    cache: FifoCache<Network>,
    compiled: Option<CompiledState>,
    loaded: seq<Network>)

  /** The call's arguments; an empty multiplier list stands for `None`. */
  datatype Request = Request(names: seq<string>, te: seq<real>, unet: seq<real>, dyn: seq<real>)

  /** Every non-empty multiplier list can be indexed at every request position. */
  predicate Covered(q: Request) {
    && MultsCover(q.te, |q.names|)
    && MultsCover(q.unet, |q.names|)
    && MultsCover(q.dyn, |q.names|)
  }

  /** The multipliers request position `i` asks for. */
  function RequestMults(q: Request, i: nat, d: real): Mults
    requires Covered(q) && i < |q.names|
  {
    Mults(MultAt(q.te, i, d), MultAt(q.unet, i, d), MultAt(q.dyn, i, d))
  }

  /** Every cached network carries the name it is cached under. */
  predicate NamesConsistent(c: FifoCache<Network>) {
    forall k :: k in c.entries ==> c.entries[k].name == k
  }

  /** Some requested name is not in the alias index. */
  predicate SomeUnresolved(r: Registry, names: seq<string>) {
    exists i :: 0 <= i < |names| && names[i] !in r.aliases
  }

  /** The registry the names are finally resolved against: the current one when it knows
      every name, otherwise a fresh scan (and only one). */
  function RegistryFor(s: State, names: seq<string>, env: Environment, opts: Options): (r: Registry)
    ensures !SomeUnresolved(s.registry, names) ==> r == s.registry
    ensures SomeUnresolved(s.registry, names) ==> r == Scan(env.candidates, env.probe, opts.preference)
  {
    if SomeUnresolved(s.registry, names) then Scan(env.candidates, env.probe, opts.preference) else s.registry
  }

  /** With some name unknown, resolution runs against exactly one fresh scan of the
      candidates: a name resolves exactly when some probed entry has it as alias key, and
      it resolves to the entry of the last such candidate. */
  lemma RescanResolves(s: State, q: Request, env: Environment, opts: Options, name: string)
    requires SomeUnresolved(s.registry, q.names)
    ensures var ps := Probes(env.candidates, env.probe);
            var k := LastFound(ps, ByAlias, opts.preference, name);
            var e := Resolve(RegistryFor(s, q.names, env, opts), name);
            && (e.Some? <==> k >= 0)
            && (e.Some? ==> e.value == ps[k].entry)
  {
    ScanEntry(Probes(env.candidates, env.probe), opts.preference, ByAlias, name);
  }

  /** With every name known, nothing is rescanned and every name resolves against the
      current alias index. */
  lemma NoRescanResolves(s: State, q: Request, env: Environment, opts: Options)
    requires !SomeUnresolved(s.registry, q.names)
    ensures RegistryFor(s, q.names, env, opts) == s.registry
    ensures forall i :: 0 <= i < |q.names| ==>
      Resolve(RegistryFor(s, q.names, env, opts), q.names[i]) == Some(s.registry.aliases[q.names[i]])
  {
  }

  /** What loading `name` on its own gives: nothing for a name the registry does not
      know, otherwise `load_safetensors` against the cache as it was before the call. */
  function Fate(reg: Registry, c0: FifoCache<Network>, env: Environment, name: string): LoadOutcome {
    match Resolve(reg, name)
    case None => NotLoaded
    case Some(e) => LoadSafetensors(name, c0, env.sdLoaded, env.read(e.filename), env.convert, env.accepts, env.initial).outcome
  }

  /** The requested names, in request order, whose fate is a load (`loaded`) or a
      failure without an exception (`!loaded`). */
  function WithFate(names: seq<string>, reg: Registry, c0: FifoCache<Network>, env: Environment, loaded: bool): seq<string>
    decreases |names|
  {
    if |names| == 0 then []
    else
      var n := names[|names| - 1];
      var f := Fate(reg, c0, env, n);
      WithFate(names[..|names| - 1], reg, c0, env, loaded) + (if (if loaded then f.Loaded? else f.NotLoaded?) then [n] else [])
  }

  /** The `name:multiplier` strings of the resolved names, in request order. */
  function ResolvedTags(q: Request, k: nat, reg: Registry, d: real, showMult: real -> string): seq<string>
    requires Covered(q) && k <= |q.names|
  {
    if k == 0 then []
    else
      ResolvedTags(q, k - 1, reg, d, showMult)
      + (if q.names[k - 1] in reg.aliases then [Tag(q.names[k - 1], MultAt(q.te, k - 1, d), showMult)] else [])
  }

  /** The state of the request loop: the cache, the strings recorded for the compiled
      model, the loaded names, the failed names, and the multipliers set per name. */
  datatype Acc = Acc(
    cache: FifoCache<Network>,
    tags: seq<string>,
    picked: seq<string>,
    failed: seq<string>,
    mults: map<string, Mults>)

  /** One iteration of the request loop, for position `i`. */
  function Step(acc: Acc, q: Request, i: nat, reg: Registry, env: Environment, d: real): (r: Acc)
    requires Covered(q) && i < |q.names|
    ensures Valid(acc.cache) ==> Valid(r.cache)
    ensures forall n :: n in acc.cache.entries ==> n in r.cache.entries
    ensures (forall n :: n in acc.picked ==> n in acc.cache.entries) ==> forall n :: n in r.picked ==> n in r.cache.entries
  {
    var name := q.names[i];
    match Resolve(reg, name)
    case None => acc.(failed := acc.failed + [name])
    case Some(e) =>
      var tags := acc.tags + [Tag(name, MultAt(q.te, i, d), env.showMult)];
      var r := LoadSafetensors(name, acc.cache, env.sdLoaded, env.read(e.filename), env.convert, env.accepts, env.initial);
      match r.outcome
      case LoadRaised => acc.(tags := tags)
      case NotLoaded => acc.(tags := tags, failed := acc.failed + [name])
      case Loaded(_) => Acc(r.cache, tags, acc.picked + [name], acc.failed, acc.mults[name := RequestMults(q, i, d)])
  }

  /** The request loop over the first `k` positions. Cache entries are never dropped
      inside the loop, and every loaded name is cached. */
  function LoadLoop(q: Request, k: nat, reg: Registry, c0: FifoCache<Network>, env: Environment, d: real): (acc: Acc)
    requires Covered(q) && k <= |q.names| && Valid(c0)
    ensures Valid(acc.cache)
    ensures forall n :: n in c0.entries ==> n in acc.cache.entries
    ensures forall n :: n in acc.picked ==> n in acc.cache.entries
    decreases k
  {
    if k == 0 then Acc(c0, [], [], [], map[])
    else Step(LoadLoop(q, k - 1, reg, c0, env, d), q, k - 1, reg, env, d)
  }

  /** The cache entries of loaded names take the multipliers set in the loop: the loop
      mutates the very objects the cache holds. */
  function Retag(c: FifoCache<Network>, mults: map<string, Mults>): (r: FifoCache<Network>)
    ensures Valid(c) ==> Valid(r)
    ensures r.order == c.order && r.entries.Keys == c.entries.Keys
    ensures forall k :: k in r.entries ==> r.entries[k] == c.entries[k].(mults := if k in mults then mults[k] else c.entries[k].mults)
  {
    FifoCache(c.order, map k | k in c.entries :: if k in mults then c.entries[k].(mults := mults[k]) else c.entries[k])
  }

  /** What `network_load` reports besides the new state. */
  datatype Report = Report(rescanned: bool, recompile: bool, failed: seq<string>)

  /** `network_load(names, te_multipliers, unet_multipliers, dyn_dims)`. */
  function NetworkLoad(s: State, q: Request, env: Environment, opts: Options): (r: (State, Report))
    requires Covered(q) && Valid(s.cache)
    ensures r.1.rescanned <==> SomeUnresolved(s.registry, q.names)
    ensures r.1.recompile <==>
      s.compiled.Some? && s.compiled.value.isCompiled
      && Mismatch(q.names, q.te, opts.defaultMultiplier, env.showMult, s.compiled.value.loraModel)
    ensures !r.1.recompile ==> r.0.compiled == s.compiled
    ensures Valid(r.0.cache) && |r.0.cache.entries| <= opts.inMemoryLimit
  {
    var d := opts.defaultMultiplier;
    var reg := RegistryFor(s, q.names, env, opts);
    var dec := MaybeRecompile(s.compiled, q.names, q.te, d, env.showMult);
    var acc := LoadLoop(q, |q.names|, reg, s.cache, env, d);
    var cache := Retag(acc.cache, acc.mults);
    var loaded := seq(|acc.picked|, i requires 0 <= i < |acc.picked| => cache.entries[acc.picked[i]]);
    var compiled := if dec.recompile then Some(dec.state.value.(loraModel := acc.tags)) else dec.state;
    (State(reg, Evict(cache, opts.inMemoryLimit), compiled, loaded), Report(SomeUnresolved(s.registry, q.names), dec.recompile, acc.failed))
  }

  /** A name is listed with a fate exactly when it is requested and has that fate. */
  lemma {:induction false} WithFateElements(names: seq<string>, reg: Registry, c0: FifoCache<Network>, env: Environment, loaded: bool, n: string)
    ensures n in WithFate(names, reg, c0, env, loaded) <==>
      n in names && (if loaded then Fate(reg, c0, env, n).Loaded? else Fate(reg, c0, env, n).NotLoaded?)
    decreases |names|
  {
    if |names| > 0 {
      var m := |names| - 1;
      WithFateElements(names[..m], reg, c0, env, loaded, n);
      assert names == names[..m] + [names[m]];
    }
  }

  /** The cache during the loop: every entry from before the call is still there and
      unchanged, and every other entry is what loading its name on its own gives. */
  predicate Agrees(c: FifoCache<Network>, c0: FifoCache<Network>, reg: Registry, env: Environment) {
    && (forall n :: n in c0.entries ==> n in c.entries && c.entries[n] == c0.entries[n])
    && (forall n :: n in c.entries && n !in c0.entries ==> Fate(reg, c0, env, n) == Loaded(c.entries[n]))
  }

  /** Loading a resolved name against the loop's cache gives the name's own fate, and the
      cache keeps agreeing with the one from before the call. */
  lemma StepFate(c: FifoCache<Network>, c0: FifoCache<Network>, reg: Registry, env: Environment, name: string, e: DiskEntry)
    requires Agrees(c, c0, reg, env) && Resolve(reg, name) == Some(e)
    ensures var r := LoadSafetensors(name, c, env.sdLoaded, env.read(e.filename), env.convert, env.accepts, env.initial);
            && r.outcome == Fate(reg, c0, env, name)
            && Agrees(r.cache, c0, reg, env)
            && (forall n :: n in r.cache.entries && n !in c.entries ==> n == name)
  {
  }

  /** One iteration in terms of the name's own fate: the loop state keeps agreeing
      with the cache from before the call. */
  lemma StepKeeps(prev: Acc, q: Request, i: nat, reg: Registry, c0: FifoCache<Network>, env: Environment, d: real)
    requires Covered(q) && i < |q.names|
    requires Agrees(prev.cache, c0, reg, env)
    requires forall n :: n in prev.cache.entries && n !in c0.entries ==> n in prev.picked
    ensures var next := Step(prev, q, i, reg, env, d);
            var name := q.names[i];
            var f := Fate(reg, c0, env, name);
            && Agrees(next.cache, c0, reg, env)
            && next.picked == prev.picked + (if f.Loaded? then [name] else [])
            && next.failed == prev.failed + (if f.NotLoaded? then [name] else [])
            && (forall n :: n in next.cache.entries && n !in c0.entries ==> n in next.picked)
            && next.mults == (if f.Loaded? then prev.mults[name := RequestMults(q, i, d)] else prev.mults)
  {
    var name := q.names[i];
    match Resolve(reg, name)
    case None =>
    case Some(e) =>
      StepFate(prev.cache, c0, reg, env, name, e);
  }

  /** The loop loads, in request order, exactly the names whose own fate is a load, and
      lists as failed exactly those whose own fate is a failure; entries it adds to the
      cache belong to loaded names. */
  lemma {:induction false} LoopFates(q: Request, k: nat, reg: Registry, c0: FifoCache<Network>, env: Environment, d: real)
    requires Covered(q) && k <= |q.names| && Valid(c0)
    ensures var acc := LoadLoop(q, k, reg, c0, env, d);
            && Agrees(acc.cache, c0, reg, env)
            && acc.picked == WithFate(q.names[..k], reg, c0, env, true)
            && acc.failed == WithFate(q.names[..k], reg, c0, env, false)
            && (forall n :: n in acc.cache.entries && n !in c0.entries ==> n in acc.picked)
    decreases k
  {
    if k > 0 {
      LoopFates(q, k - 1, reg, c0, env, d);
      var prev := LoadLoop(q, k - 1, reg, c0, env, d);
      assert LoadLoop(q, k, reg, c0, env, d) == Step(prev, q, k - 1, reg, env, d);
      StepKeeps(prev, q, k - 1, reg, c0, env, d);
      WithFatePrefix(q.names, k, reg, c0, env, true);
      WithFatePrefix(q.names, k, reg, c0, env, false);
    }
  }

  /** Filtering one more name of the request appends it when its fate is the one kept. */
  lemma WithFatePrefix(names: seq<string>, k: nat, reg: Registry, c0: FifoCache<Network>, env: Environment, loaded: bool)
    requires 0 < k <= |names|
    ensures var f := Fate(reg, c0, env, names[k - 1]);
            WithFate(names[..k], reg, c0, env, loaded)
            == WithFate(names[..k - 1], reg, c0, env, loaded) + (if (if loaded then f.Loaded? else f.NotLoaded?) then [names[k - 1]] else [])
  {
    assert names[..k][..k - 1] == names[..k - 1];
    assert names[..k][k - 1] == names[k - 1];
  }

  /** The last occurrence of `n` does not move when a different element is appended. */
  lemma LastIndexOfSnoc(s: seq<string>, x: string, n: string)
    requires n in s && n != x
    ensures LastIndexOf(s + [x], n) == LastIndexOf(s, n)
  {
    assert (s + [x])[..|s|] == s;
  }

  /** The loop's multipliers map holds exactly the picked names, each with the
      multipliers of its last occurrence among the first `k` requested names. */
  ghost predicate MultsOfLast(acc: Acc, q: Request, k: nat, d: real)
    requires Covered(q) && k <= |q.names|
  {
    && (forall n :: n in acc.mults <==> n in acc.picked)
    && (forall n :: n in acc.mults ==> n in q.names[..k] && acc.mults[n] == RequestMults(q, LastIndexOf(q.names[..k], n), d))
  }

  /** One iteration extends `MultsOfLast` from `k - 1` to `k` names. */
  lemma MultsStep(prev: Acc, next: Acc, q: Request, k: nat, reg: Registry, c0: FifoCache<Network>, env: Environment, d: real)
    requires Covered(q) && 0 < k <= |q.names|
    requires MultsOfLast(prev, q, k - 1, d)
    requires prev.picked == WithFate(q.names[..k - 1], reg, c0, env, true)
    requires var f := Fate(reg, c0, env, q.names[k - 1]);
             && next.picked == prev.picked + (if f.Loaded? then [q.names[k - 1]] else [])
             && next.mults == (if f.Loaded? then prev.mults[q.names[k - 1] := RequestMults(q, k - 1, d)] else prev.mults)
    ensures MultsOfLast(next, q, k, d)
  {
    var name := q.names[k - 1];
    var pre := q.names[..k - 1];
    assert q.names[..k] == pre + [name];
    if Fate(reg, c0, env, name).Loaded? {
      assert LastIndexOf(q.names[..k], name) == k - 1;
    } else {
      WithFateElements(pre, reg, c0, env, true, name);
      assert name !in prev.mults;
    }
    forall n | n in next.mults
      ensures n in q.names[..k] && next.mults[n] == RequestMults(q, LastIndexOf(q.names[..k], n), d)
    {
      if n != name {
        LastIndexOfSnoc(pre, name, n);
      }
    }
  }

  /** The multipliers set for a loaded name are the ones of its last occurrence in the
      request: the same object is returned for every occurrence, so the last write wins. */
  lemma {:induction false} LoopMults(q: Request, k: nat, reg: Registry, c0: FifoCache<Network>, env: Environment, d: real)
    requires Covered(q) && k <= |q.names| && Valid(c0)
    ensures MultsOfLast(LoadLoop(q, k, reg, c0, env, d), q, k, d)
    decreases k
  {
    if k > 0 {
      LoopMults(q, k - 1, reg, c0, env, d);
      LoopFates(q, k - 1, reg, c0, env, d);
      var prev := LoadLoop(q, k - 1, reg, c0, env, d);
      var acc := LoadLoop(q, k, reg, c0, env, d);
      assert acc == Step(prev, q, k - 1, reg, env, d);
      StepKeeps(prev, q, k - 1, reg, c0, env, d);
      MultsStep(prev, acc, q, k, reg, c0, env, d);
    }
  }

  /** The loop records a `name:multiplier` string for every resolved name, loaded or not. */
  lemma {:induction false} LoopTags(q: Request, k: nat, reg: Registry, c0: FifoCache<Network>, env: Environment, d: real)
    requires Covered(q) && k <= |q.names| && Valid(c0)
    ensures LoadLoop(q, k, reg, c0, env, d).tags == ResolvedTags(q, k, reg, d, env.showMult)
    decreases k
  {
    if k > 0 {
      LoopTags(q, k - 1, reg, c0, env, d);
    }
  }

  /** `network_load`'s result in terms of its request loop. */
  lemma NetworkLoadShape(s: State, q: Request, env: Environment, opts: Options)
    requires Covered(q) && Valid(s.cache)
    ensures var reg := RegistryFor(s, q.names, env, opts);
            var acc := LoadLoop(q, |q.names|, reg, s.cache, env, opts.defaultMultiplier);
            var c := Retag(acc.cache, acc.mults);
            var r := NetworkLoad(s, q, env, opts);
            && r.0.registry == reg
            && r.0.cache == Evict(c, opts.inMemoryLimit)
            && r.1.failed == acc.failed
            && |r.0.loaded| == |acc.picked|
  {
  }

  /** The loaded networks are the retagged cache entries of the loaded names. */
  lemma NetworkLoadLoaded(s: State, q: Request, env: Environment, opts: Options)
    requires Covered(q) && Valid(s.cache)
    ensures var reg := RegistryFor(s, q.names, env, opts);
            var acc := LoadLoop(q, |q.names|, reg, s.cache, env, opts.defaultMultiplier);
            var c := Retag(acc.cache, acc.mults);
            var r := NetworkLoad(s, q, env, opts);
            |r.0.loaded| == |acc.picked| && forall i :: 0 <= i < |acc.picked| ==> r.0.loaded[i] == c.entries[acc.picked[i]]
  {
  }

  /** The loaded networks and the failed names: in request order, a name is loaded when
      loading it on its own succeeds and failed when that returns nothing (a name whose
      load raises is in neither list); each loaded network is that load's result with the
      multipliers of the name's last occurrence in the request. */
  lemma NetworkLoadResult(s: State, q: Request, env: Environment, opts: Options)
    requires Covered(q) && Valid(s.cache)
    ensures var reg := RegistryFor(s, q.names, env, opts);
            var r := NetworkLoad(s, q, env, opts);
            var picked := WithFate(q.names, reg, s.cache, env, true);
            && r.0.registry == reg
            && r.1.failed == WithFate(q.names, reg, s.cache, env, false)
            && |r.0.loaded| == |picked|
            && forall i :: 0 <= i < |picked| ==>
                 && picked[i] in q.names
                 && Fate(reg, s.cache, env, picked[i]).Loaded?
                 && r.0.loaded[i] == Fate(reg, s.cache, env, picked[i]).net.(mults := RequestMults(q, LastIndexOf(q.names, picked[i]), opts.defaultMultiplier))
  {
    var reg := RegistryFor(s, q.names, env, opts);
    var d := opts.defaultMultiplier;
    var k := |q.names|;
    assert q.names[..k] == q.names;
    LoopFates(q, k, reg, s.cache, env, d);
    LoopMults(q, k, reg, s.cache, env, d);
    var acc := LoadLoop(q, k, reg, s.cache, env, d);
    forall i | 0 <= i < |acc.picked|
      ensures acc.picked[i] in q.names && Fate(reg, s.cache, env, acc.picked[i]).Loaded?
      ensures acc.cache.entries[acc.picked[i]] == Fate(reg, s.cache, env, acc.picked[i]).net
    {
      WithFateElements(q.names, reg, s.cache, env, true, acc.picked[i]);
    }
  }

  /** When a recompile is decided, the compiled model records the `name:multiplier`
      string of every resolved name, in request order. */
  lemma NetworkLoadCompiled(s: State, q: Request, env: Environment, opts: Options)
    requires Covered(q) && Valid(s.cache)
    ensures var r := NetworkLoad(s, q, env, opts);
            r.1.recompile ==>
              r.0.compiled == Some(s.compiled.value.(loraModel := ResolvedTags(q, |q.names|, RegistryFor(s, q.names, env, opts), opts.defaultMultiplier, env.showMult)))
  {
    LoopTags(q, |q.names|, RegistryFor(s, q.names, env, opts), s.cache, env, opts.defaultMultiplier);
  }

  /** With every name resolved, the tags cover the whole request position by position. */
  lemma {:induction false} ResolvedTagsAll(q: Request, k: nat, reg: Registry, d: real, showMult: real -> string)
    requires Covered(q) && k <= |q.names|
    requires forall i :: 0 <= i < |q.names| ==> q.names[i] in reg.aliases
    ensures |ResolvedTags(q, k, reg, d, showMult)| == k
    ensures forall i :: 0 <= i < k ==> ResolvedTags(q, k, reg, d, showMult)[i] == Tag(q.names[i], MultAt(q.te, i, d), showMult)
    decreases k
  {
    if k > 0 {
      ResolvedTagsAll(q, k - 1, reg, d, showMult);
    }
  }

  /** After a recompile for a request whose names all resolve, repeating the same request
      does not recompile again. */
  lemma RecompileSettles(s: State, q: Request, env: Environment, opts: Options)
    requires Covered(q) && Valid(s.cache)
    requires !SomeUnresolved(RegistryFor(s, q.names, env, opts), q.names)
    ensures var r := NetworkLoad(s, q, env, opts);
            r.1.recompile ==> !NetworkLoad(r.0, q, env, opts).1.recompile
  {
    var r := NetworkLoad(s, q, env, opts);
    if r.1.recompile {
      var reg := RegistryFor(s, q.names, env, opts);
      NetworkLoadCompiled(s, q, env, opts);
      ResolvedTagsAll(q, |q.names|, reg, opts.defaultMultiplier, env.showMult);
      SameRequestNoRecompile(r.0.compiled.value, q.names, q.te, opts.defaultMultiplier, env.showMult);
    }
  }

  /** The recorded strings never outnumber the positions, and fall short of them when a
      name among those positions does not resolve. */
  lemma {:induction false} ResolvedTagsShort(q: Request, k: nat, reg: Registry, d: real, showMult: real -> string)
    requires Covered(q) && k <= |q.names|
    ensures |ResolvedTags(q, k, reg, d, showMult)| <= k
    ensures (exists i :: 0 <= i < k && q.names[i] !in reg.aliases) ==> |ResolvedTags(q, k, reg, d, showMult)| < k
    decreases k
  {
    if k > 0 {
      ResolvedTagsShort(q, k - 1, reg, d, showMult);
      if exists i :: 0 <= i < k && q.names[i] !in reg.aliases {
        var i :| 0 <= i < k && q.names[i] !in reg.aliases;
        if i < k - 1 {
          assert exists j :: 0 <= j < k - 1 && q.names[j] !in reg.aliases;
        }
      }
    }
  }

  /** When a name stays unknown after the rescan, no string is recorded for it, so the
      recorded list is shorter than the request and the same request recompiles again,
      every time. */
  lemma RecompilesForever(s: State, q: Request, env: Environment, opts: Options)
    requires Covered(q) && Valid(s.cache)
    requires SomeUnresolved(RegistryFor(s, q.names, env, opts), q.names)
    ensures var r := NetworkLoad(s, q, env, opts);
            r.1.recompile ==> NetworkLoad(r.0, q, env, opts).1.recompile
  {
    var r := NetworkLoad(s, q, env, opts);
    if r.1.recompile {
      var reg := RegistryFor(s, q.names, env, opts);
      var tags := ResolvedTags(q, |q.names|, reg, opts.defaultMultiplier, env.showMult);
      NetworkLoadCompiled(s, q, env, opts);
      assert r.0.compiled == Some(s.compiled.value.(loraModel := tags));
      ResolvedTagsShort(q, |q.names|, reg, opts.defaultMultiplier, env.showMult);
      assert Mismatch(q.names, q.te, opts.defaultMultiplier, env.showMult, tags);
    }
  }

  /** A cached name that loads gets its cached network back. */
  lemma FateCached(reg: Registry, c0: FifoCache<Network>, env: Environment, n: string)
    requires n in c0.entries && Fate(reg, c0, env, n).Loaded?
    ensures Fate(reg, c0, env, n).net == c0.entries[n]
  {
  }

  /** The loop's cache and multipliers for one name: a requested name that loads holds
      its load's network and its last occurrence's multipliers; any other entry is the
      one from before the call and gets no multipliers. */
  lemma LoopCache(q: Request, reg: Registry, c0: FifoCache<Network>, env: Environment, d: real, n: string)
    requires Covered(q) && Valid(c0)
    requires n in LoadLoop(q, |q.names|, reg, c0, env, d).cache.entries
    ensures var acc := LoadLoop(q, |q.names|, reg, c0, env, d);
            if n in q.names && Fate(reg, c0, env, n).Loaded? then
              && acc.cache.entries[n] == Fate(reg, c0, env, n).net
              && n in acc.mults && acc.mults[n] == RequestMults(q, LastIndexOf(q.names, n), d)
            else
              n in c0.entries && acc.cache.entries[n] == c0.entries[n] && n !in acc.mults
  {
    var k := |q.names|;
    assert q.names[..k] == q.names;
    LoopFates(q, k, reg, c0, env, d);
    LoopMults(q, k, reg, c0, env, d);
    WithFateElements(q.names, reg, c0, env, true, n);
    if n in c0.entries && Fate(reg, c0, env, n).Loaded? {
      FateCached(reg, c0, env, n);
    }
  }

  /** The cache after the call: only the newest entries survive eviction; an entry of a
      name loaded by this call holds that load's network with the name's last request
      multipliers, and any other entry is the one from before the call. */
  lemma NetworkLoadCache(s: State, q: Request, env: Environment, opts: Options)
    requires Covered(q) && Valid(s.cache)
    ensures var reg := RegistryFor(s, q.names, env, opts);
            var c := NetworkLoad(s, q, env, opts).0.cache;
            forall n :: n in c.entries ==>
              if n in q.names && Fate(reg, s.cache, env, n).Loaded? then
                c.entries[n] == Fate(reg, s.cache, env, n).net.(mults := RequestMults(q, LastIndexOf(q.names, n), opts.defaultMultiplier))
              else
                n in s.cache.entries && c.entries[n] == s.cache.entries[n]
  {
    var reg := RegistryFor(s, q.names, env, opts);
    var d := opts.defaultMultiplier;
    var acc := LoadLoop(q, |q.names|, reg, s.cache, env, d);
    var retagged := Retag(acc.cache, acc.mults);
    NetworkLoadShape(s, q, env, opts);
    var c := NetworkLoad(s, q, env, opts).0.cache;
    assert c == Evict(retagged, opts.inMemoryLimit);
    forall n | n in c.entries
      ensures if n in q.names && Fate(reg, s.cache, env, n).Loaded? then
                c.entries[n] == Fate(reg, s.cache, env, n).net.(mults := RequestMults(q, LastIndexOf(q.names, n), d))
              else
                n in s.cache.entries && c.entries[n] == s.cache.entries[n]
    {
      assert c.entries[n] == retagged.entries[n];
      LoopCache(q, reg, s.cache, env, d, n);
    }
  }

  /** One iteration either leaves the insertion order alone or appends its own name,
      which was not cached and which it picks. */
  lemma StepOrder(q: Request, k: nat, reg: Registry, c0: FifoCache<Network>, env: Environment, d: real)
    requires Covered(q) && 0 < k <= |q.names| && Valid(c0)
    ensures StepAppends(LoadLoop(q, k - 1, reg, c0, env, d), LoadLoop(q, k, reg, c0, env, d), q.names[k - 1])
  {
  }

  /** How one loop iteration changes the insertion order: not at all, or by appending
      the name it loads, which was not cached before. */
  ghost predicate StepAppends(prev: Acc, next: Acc, name: string) {
    && (next.picked == prev.picked || next.picked == prev.picked + [name])
    && (|| next.cache.order == prev.cache.order
        || (&& next.cache.order == prev.cache.order + [name]
            && name !in prev.cache.entries
            && next.picked == prev.picked + [name]))
  }

  /** The insertion order `acc` has after starting from `c0`: the old order is a prefix,
      and every later key is a name the loop picked that `c0` did not hold. */
  ghost predicate AppendedTo(c0: FifoCache<Network>, acc: Acc) {
    && |c0.order| <= |acc.cache.order|
    && acc.cache.order[..|c0.order|] == c0.order
    && forall i :: |c0.order| <= i < |acc.cache.order| ==>
         acc.cache.order[i] in acc.picked && acc.cache.order[i] !in c0.entries
  }

  /** `AppendedTo` survives one loop iteration. */
  lemma OrderStep(c0: FifoCache<Network>, prev: Acc, next: Acc, name: string)
    requires AppendedTo(c0, prev) && StepAppends(prev, next, name)
    requires forall n :: n in c0.entries ==> n in prev.cache.entries
    ensures AppendedTo(c0, next)
  {
    if next.cache.order != prev.cache.order {
      assert next.cache.order[..|prev.cache.order|] == prev.cache.order;
      assert next.cache.order[..|c0.order|] == prev.cache.order[..|c0.order|];
    }
  }

  /** The loop only appends to the insertion order, and what it appends are names it
      loads that were not cached before the call. */
  lemma {:induction false} LoopOrder(q: Request, k: nat, reg: Registry, c0: FifoCache<Network>, env: Environment, d: real)
    requires Covered(q) && k <= |q.names| && Valid(c0)
    ensures AppendedTo(c0, LoadLoop(q, k, reg, c0, env, d))
    decreases k
  {
    if k == 0 {
      assert c0.order[..|c0.order|] == c0.order;
    } else {
      LoopOrder(q, k - 1, reg, c0, env, d);
      StepOrder(q, k, reg, c0, env, d);
      OrderStep(c0, LoadLoop(q, k - 1, reg, c0, env, d), LoadLoop(q, k, reg, c0, env, d), q.names[k - 1]);
    }
  }

  /** `network_load` evicts by age across the whole call: when an entry from before the
      call survives, so does every entry inserted after it, and in particular every
      network first loaded by this call. */
  lemma NetworkLoadEvictsOldestFirst(s: State, q: Request, env: Environment, opts: Options)
    requires Covered(q) && Valid(s.cache)
    ensures var c := NetworkLoad(s, q, env, opts).0.cache;
            forall i, j :: 0 <= i <= j < |s.cache.order| && s.cache.order[i] in c.entries ==> s.cache.order[j] in c.entries
    ensures var reg := RegistryFor(s, q.names, env, opts);
            var c := NetworkLoad(s, q, env, opts).0.cache;
            forall o, n :: && o in s.cache.entries && o in c.entries
                           && n in q.names && Fate(reg, s.cache, env, n).Loaded? && n !in s.cache.entries
                           ==> n in c.entries
  {
    var reg := RegistryFor(s, q.names, env, opts);
    var d := opts.defaultMultiplier;
    var acc := LoadLoop(q, |q.names|, reg, s.cache, env, d);
    var retagged := Retag(acc.cache, acc.mults);
    NetworkLoadShape(s, q, env, opts);
    var c := NetworkLoad(s, q, env, opts).0.cache;
    assert c == Evict(retagged, opts.inMemoryLimit);
    LoopOrder(q, |q.names|, reg, s.cache, env, d);
    assert retagged.order[..|s.cache.order|] == s.cache.order;
    forall i, j | 0 <= i <= j < |s.cache.order| && s.cache.order[i] in c.entries
      ensures s.cache.order[j] in c.entries
    {
      assert retagged.order[i] == s.cache.order[i] && retagged.order[j] == s.cache.order[j];
      EvictOldestFirst(retagged, opts.inMemoryLimit, i, j);
    }
    LoopFates(q, |q.names|, reg, s.cache, env, d);
    assert q.names[..|q.names|] == q.names;
    forall o, n | && o in s.cache.entries && o in c.entries
                  && n in q.names && Fate(reg, s.cache, env, n).Loaded? && n !in s.cache.entries
      ensures n in c.entries
    {
      WithFateElements(q.names, reg, s.cache, env, true, n);
      EvictKeepsAppended(s.cache, retagged, opts.inMemoryLimit, o, n);
    }
  }

  /** A network loaded from disk is named after the name it was requested under. */
  lemma FateName(reg: Registry, c0: FifoCache<Network>, env: Environment, n: string)
    requires n !in c0.entries && Fate(reg, c0, env, n).Loaded?
    ensures Fate(reg, c0, env, n).net.name == n
  {
  }

  /** The loop keeps every cached network named after its key. */
  lemma LoopNames(q: Request, reg: Registry, c0: FifoCache<Network>, env: Environment, d: real)
    requires Covered(q) && Valid(c0) && NamesConsistent(c0)
    ensures NamesConsistent(LoadLoop(q, |q.names|, reg, c0, env, d).cache)
  {
    LoopFates(q, |q.names|, reg, c0, env, d);
    var acc := LoadLoop(q, |q.names|, reg, c0, env, d);
    forall n | n in acc.cache.entries ensures acc.cache.entries[n].name == n {
      if n !in c0.entries {
        FateName(reg, c0, env, n);
      }
    }
  }

  /** Networks carry the name they are cached under, before and after the call. */
  lemma NetworkLoadCacheNames(s: State, q: Request, env: Environment, opts: Options)
    requires Covered(q) && Valid(s.cache) && NamesConsistent(s.cache)
    ensures NamesConsistent(NetworkLoad(s, q, env, opts).0.cache)
  {
    var reg := RegistryFor(s, q.names, env, opts);
    var acc := LoadLoop(q, |q.names|, reg, s.cache, env, opts.defaultMultiplier);
    LoopNames(q, reg, s.cache, env, opts.defaultMultiplier);
    var retagged := Retag(acc.cache, acc.mults);
    assert NamesConsistent(retagged);
    NetworkLoadShape(s, q, env, opts);
  }

  /** Every loaded network is named after the request entry that loaded it. */
  lemma NetworkLoadNames(s: State, q: Request, env: Environment, opts: Options)
    requires Covered(q) && Valid(s.cache) && NamesConsistent(s.cache)
    ensures var r := NetworkLoad(s, q, env, opts);
            var picked := WithFate(q.names, RegistryFor(s, q.names, env, opts), s.cache, env, true);
            && |r.0.loaded| == |picked|
            && forall i :: 0 <= i < |r.0.loaded| ==> r.0.loaded[i].name == picked[i]
  {
    var reg := RegistryFor(s, q.names, env, opts);
    var d := opts.defaultMultiplier;
    var k := |q.names|;
    assert q.names[..k] == q.names;
    LoopFates(q, k, reg, s.cache, env, d);
    LoopNames(q, reg, s.cache, env, d);
    var acc := LoadLoop(q, k, reg, s.cache, env, d);
    var retagged := Retag(acc.cache, acc.mults);
    NetworkLoadLoaded(s, q, env, opts);
    var loaded := NetworkLoad(s, q, env, opts).0.loaded;
    forall i | 0 <= i < |loaded| ensures loaded[i].name == acc.picked[i] {
      var n := acc.picked[i];
      assert loaded[i] == retagged.entries[n];
      assert retagged.entries[n].name == acc.cache.entries[n].name;
    }
  }
}

=== FILE: strings.dfy ===
/** The string operations the key mapper and the registry use, with Python's semantics
    (`str.split`, `str.join`, `str.replace`, `str.startswith`, `str.lower`, `os.path`). */
module Strings {

  /** `s.split(c)` for a one-character separator: the pieces between separators,
      always at least one, none of them holding the separator. */
  function Split(s: string, c: char): (parts: seq<string>)
    ensures |parts| >= 1
    ensures forall i :: 0 <= i < |parts| ==> c !in parts[i]
    decreases |s|
  {
    if |s| == 0 then [""]
    else
      var rest := Split(s[1..], c);
      if s[0] == c then [""] + rest
      else [[s[0]] + rest[0]] + rest[1..]
  }

  /** `sep.join(parts)`. */
  function Join(sep: string, parts: seq<string>): string {
    if |parts| == 0 then ""
    else if |parts| == 1 then parts[0]
    else parts[0] + sep + Join(sep, parts[1..])
  }

  lemma JoinConsFirst(sep: string, p: string, q: string, ys: seq<string>)
    ensures Join(sep, [p + q] + ys) == p + Join(sep, [q] + ys)
  {
    if |ys| > 0 {
      assert ([p + q] + ys)[1..] == ys;
      assert ([q] + ys)[1..] == ys;
    }
  }

  /** Splitting and re-joining with the same separator gives the string back. */
  lemma {:induction false} JoinSplit(s: string, c: char)
    ensures Join([c], Split(s, c)) == s
    decreases |s|
  {
    if |s| > 0 {
      var rest := Split(s[1..], c);
      JoinSplit(s[1..], c);
      if s[0] == c {
        assert ([""] + rest)[1..] == rest;
        assert Join([c], [""] + rest) == "" + [c] + Join([c], rest);
        assert s == [s[0]] + s[1..];
      } else {
        assert [rest[0]] + rest[1..] == rest;
        JoinConsFirst([c], [s[0]], rest[0], rest[1..]);
        assert s == [s[0]] + s[1..];
      }
    }
  }

  /** A string splits into two or more pieces exactly when it holds the separator. */
  lemma {:induction false} SplitCount(s: string, c: char)
    ensures |Split(s, c)| >= 2 <==> c in s
    decreases |s|
  {
    if |s| > 0 {
      SplitCount(s[1..], c);
      assert c in s <==> s[0] == c || c in s[1..] by {
        assert s == [s[0]] + s[1..];
      }
    }
  }

  /** Joining two non-empty runs of pieces is joining each and putting the separator between. */
  lemma {:induction false} JoinAppend(sep: string, a: seq<string>, b: seq<string>)
    requires |a| >= 1 && |b| >= 1
    ensures Join(sep, a + b) == Join(sep, a) + sep + Join(sep, b)
    decreases |a|
  {
    if |a| == 1 {
      assert (a + b)[1..] == b;
    } else {
      assert (a + b)[1..] == a[1..] + b;
      JoinAppend(sep, a[1..], b);
    }
  }

  /** Every `from` character of `s` replaced by `to`. */
  function Subst(s: string, from: char, to: char): (r: string)
    ensures |r| == |s|
    ensures forall i :: 0 <= i < |s| ==> r[i] == (if s[i] == from then to else s[i])
  {
    seq(|s|, i requires 0 <= i < |s| => if s[i] == from then to else s[i])
  }

  lemma SubstAppend(a: string, b: string, from: char, to: char)
    ensures Subst(a + b, from, to) == Subst(a, from, to) + Subst(b, from, to)
  {
  }

  lemma SubstAbsent(s: string, from: char, to: char)
    requires from !in s
    ensures Subst(s, from, to) == s
  {
  }

  /** Joining dot-free pieces with `_` is joining them with `.` and then turning every
      dot into an underscore. */
  lemma {:induction false} JoinSubst(parts: seq<string>)
    requires forall i :: 0 <= i < |parts| ==> '.' !in parts[i]
    ensures Join("_", parts) == Subst(Join(".", parts), '.', '_')
    decreases |parts|
  {
    if |parts| == 1 {
      SubstAbsent(parts[0], '.', '_');
    } else if |parts| > 1 {
      JoinSubst(parts[1..]);
      SubstAbsent(parts[0], '.', '_');
      SubstAppend(parts[0] + ".", Join(".", parts[1..]), '.', '_');
      SubstAppend(parts[0], ".", '.', '_');
    }
  }

  /** `s.startswith(p)`. */
  predicate StartsWith(s: string, p: string) {
    |p| <= |s| && s[..|p|] == p
  }

  /** `pat` occurs in `s` starting at index `i`. */
  predicate OccursAt(s: string, pat: string, i: int) {
    0 <= i && i + |pat| <= |s| && s[i..i + |pat|] == pat
  }

  /** `pat` occurs somewhere in `s`. */
  predicate Occurs(s: string, pat: string) {
    exists i :: 0 <= i <= |s| && OccursAt(s, pat, i)
  }

  /** A pattern with a character that `s` lacks does not occur in `s`. */
  lemma CharAbsent(s: string, pat: string, k: nat)
    requires k < |pat| && pat[k] !in s
    ensures !Occurs(s, pat)
  {
  }

  /** `s.replace(pat, rep)`: every non-overlapping occurrence, scanned left to right. */
  function ReplaceAll(s: string, pat: string, rep: string): (r: string)
    requires |pat| > 0
    ensures !Occurs(s, pat) ==> r == s
    decreases |s|
  {
    if |s| < |pat| then s
    else if s[..|pat|] == pat then
      assert OccursAt(s, pat, 0);
      rep + ReplaceAll(s[|pat|..], pat, rep)
    else
      assert !Occurs(s, pat) ==> !Occurs(s[1..], pat) by {
        if Occurs(s[1..], pat) {
          var i :| 0 <= i <= |s[1..]| && OccursAt(s[1..], pat, i);
          assert s[1..][i..i + |pat|] == s[i + 1..i + 1 + |pat|];
          assert OccursAt(s, pat, i + 1);
        }
      }
      [s[0]] + ReplaceAll(s[1..], pat, rep)
  }

  /** An occurrence at the front is replaced and the scan resumes after it. */
  lemma ReplaceAtFront(pat: string, rest: string, rep: string)
    requires |pat| > 0
    ensures ReplaceAll(pat + rest, pat, rep) == rep + ReplaceAll(rest, pat, rep)
  {
    assert (pat + rest)[..|pat|] == pat;
    assert (pat + rest)[|pat|..] == rest;
  }

  /** ASCII `str.lower()`. */
  function Lower(s: string): (r: string)
    ensures |r| == |s|
    ensures forall i :: 0 <= i < |s| ==> r[i] == (if 'A' <= s[i] <= 'Z' then (s[i] as int + 32) as char else s[i])
  {
    seq(|s|, i requires 0 <= i < |s| => if 'A' <= s[i] <= 'Z' then (s[i] as int + 32) as char else s[i])
  }

  /** `s.rfind(c)`: the index of the last `c`, or -1. */
  function RFind(s: string, c: char): (r: int)
    ensures -1 <= r < |s|
    ensures r >= 0 ==> s[r] == c && forall j :: r < j < |s| ==> s[j] != c
    ensures r == -1 ==> c !in s
  {
    if |s| == 0 then -1
    else if s[|s| - 1] == c then |s| - 1
    else RFind(s[..|s| - 1], c)
  }

  /** `os.path.basename(p)` on a POSIX path. */
  function Basename(p: string): string {
    p[RFind(p, '/') + 1..]
  }

  /** `os.path.splitext(b)[0]` for a base name: the text before the last dot, unless
      everything before that dot is dots (a leading-dot name has no extension). */
  function StripExtension(b: string): string {
    var d := RFind(b, '.');
    if d >= 0 && exists i :: 0 <= i < d && b[i] != '.' then b[..d] else b
  }
}

=== FILE: wrappers.dfy ===
/** Optional values, standing for Python's `None`-or-value results. */
module Wrappers {

  datatype Option<+T> = None | Some(value: T) {

    /** The wrapped value, or `default` for `None` (Python's `d.get(k, default)`). */
    function GetOr(default: T): T {
      match this
      case Some(v) => v
      case None => default
    }
  }
}
